=== FILE: README.md ===
# Portfolio site: service worker, page scripts and dev server in Dafny

This project models the behaviour of a static portfolio site's JavaScript.
It covers four parts:

- the **service worker** (`service-worker.js`), which precaches a fixed
  manifest, evicts stale cache generations, answers requests cache-first
  with write-through of fresh responses and an offline fallback, and calls
  `skipWaiting` on request;
- the **page script** (`script.js`): the contact-form validators and
  `validateForm`, the typewriter effect, the theme toggle, the project
  filter and the hamburger menu;
- the **production script** (`script-prod.js`): the critical-error
  classifier, alt-text derivation for images, the once-only keyboard
  enhancement and the reload-once guard on a controller change;
- the **development server** (`server.js`): URL to file path, the MIME table
  keyed by the lower-cased extension, and the choice of status.

Browser objects (Cache Storage, the DOM, `localStorage`) are modelled as
immutable values, and each handler is a pure function from the old state to
the new. The network is a parameter. During install it is a function from
URL to `NetworkResult`. During a fetch it is the single result of that fetch.

Modules:

- `Wrappers`: `Option`.
- `JsString`: ECMAScript `trim`, UTF-16 `length`, `includes`, `lastIndexOf` and ASCII case mapping.
- `ServiceWorker`.
- `ContactForm`, `Typewriter`, `ThemeToggle`, `ProjectFilter` and `HamburgerMenu`, for `script.js`.
- `ErrorClassifier` and `Accessibility`, for `script-prod.js`.
- `StaticServer`, for `server.js`.

Cache Storage is a sequence of named caches in creation order, with distinct
names. `caches.match` searches every cache in that order. A cache hit can
therefore come from an older generation until activation deletes it.

`Cache.addAll` is all-or-nothing, as the Cache interface of the W3C Service
Workers specification defines it. A fetched response is accepted when its
status is between 200 and 299 and is not 206.

`StaticServer.ExtName` follows Node's POSIX `path.extname`, not a plain
"suffix from the last dot" rule. Trailing slashes are ignored. A base name
whose only dot is its first character (`.env`) has no extension, and neither
does `..` (`DotDotHasNoExt`). For ordinary file names the two rules agree (`ExtNameOfFile`).

Three behaviours of the code matter here; the model follows the code:

- A failed precache is not contained. `caches.open(CACHE_NAME)` runs before
  `addAll`, and the `.catch` swallows the rejection, so the install completes
  with an empty new generation. The following activation then deletes the old
  one (`FailedInstallEvictsOldGeneration`).
- `/offline.html` is not in the manifest. The HTML fallback therefore finds
  nothing after a clean deployment, and the handler answers with `undefined`
  (`OfflinePageNotPrecached`, `OfflineFallbackEmptyAfterDeploy`).
- A failed fetch for a request without an `accept` header throws inside the
  `.catch`, so `respondWith` is given a rejected promise (`Rejected`).

## Model

| member | source | states |
|---|---|---|
| ServiceWorker.Match | service-worker.js:77-82 | `caches.match` finds nothing exactly when no cache holds the URL; otherwise it returns the entry of the oldest cache that holds it |
| ServiceWorker.Open | service-worker.js:39 | opening a cache creates it, empty and last, only when no cache of that name exists |
| ServiceWorker.Put | service-worker.js:98-101 | `cache.put` sets the URL's entry in the named cache, last write wins, leaves every other cache's contents alone, and keeps the caches in creation order (a new cache goes last) |
| ServiceWorker.AddAll | service-worker.js:42 | `addAll` succeeds only if every fetch yields a 2xx response other than 206; on success every URL is stored with its response and earlier entries for other URLs remain |
| ServiceWorker.Install | service-worker.js:36-48 | `skipWaiting` is always called and `CACHE_NAME` always exists afterwards; the manifest is stored exactly when every fetch succeeds, and then `CACHE_NAME` holds its earlier entries plus the manifest URLs and nothing else, earlier entries outside the manifest unchanged; a failure leaves just the opened cache; other caches are untouched and the caches keep their creation order |
| ServiceWorker.InstallIdempotent | service-worker.js:36-48 | installing again with the same network changes nothing |
| ServiceWorker.Activate | service-worker.js:51-64 | activation keeps only caches named `CACHE_NAME`, all of them, and invents none |
| ServiceWorker.ActivateKeepsOnlyCurrent | service-worker.js:51-64 | after activation at most one cache remains; it is the current generation exactly when one existed; a URL matches afterwards if and only if the current generation held it |
| ServiceWorker.Intercepts | service-worker.js:69-72 | the worker answers exactly the URLs that start with its origin, `https://fonts.`, `https://cdnjs.` or `https://cdn.jsdelivr.net/` |
| ServiceWorker.HandleFetch | service-worker.js:67-115 | URLs outside the origin and the three CDN prefixes pass through untouched; a hit is served without the network; a miss fetches; only a 200 `basic` response is written to `CACHE_NAME`; a network failure yields the cached offline page for HTML requests, `undefined` for others, and a rejection when `accept` is absent; a write-through keeps the caches in creation order |
| ServiceWorker.MatchAfterPut | service-worker.js:98-101 | a URL no cache held matches the response just written through |
| ServiceWorker.WriteThroughThenHit | service-worker.js:77-103 | after a cacheable response is written through, the next request for the URL is a hit that does not use the network |
| ServiceWorker.OnMessage | service-worker.js:118-122 | `skipWaiting` is called exactly when the message data has `action === 'skipWaiting'` |
| ServiceWorker.Step | service-worker.js:36-122 | one event of the worker's life; a message never touches the cache store; `skipWaiting` is counted on every install and on the skip message only |
| ServiceWorker.StepKeepsProvenance | service-worker.js:69-101 | every cached entry is an intercepted URL paired with a 200 `basic` or precache-accepted response, and every event keeps this |
| ServiceWorker.UntrustedNeverCached | service-worker.js:69-74 | a URL outside the intercepted prefixes is never in the cache and is always passed through |
| ServiceWorker.PrecacheIntercepted | service-worker.js:69-72 | every URL of the precache manifest is one the fetch handler intercepts |
| ServiceWorker.SiteUrlsRooted | service-worker.js:3-27 | every site-relative manifest entry starts with `/` |
| ServiceWorker.OfflinePageNotPrecached | service-worker.js:3-33 | the offline page's URL is not in the precache manifest |
| ServiceWorker.OfflineFallbackEmptyAfterDeploy | service-worker.js:108-111 | after installing and activating on an empty store, a missed HTML request with the network down is answered with `undefined` |
| ServiceWorker.FailedInstallEvictsOldGeneration | service-worker.js:38-46 | when any precache fetch fails, install and activate still leave the new, empty generation alone, and no URL matches |
| JsString.Trim | script.js:1063 | `trim` removes exactly the leading and trailing ECMAScript whitespace; the result is empty if and only if the input is all whitespace |
| JsString.TrimIgnoresPadding | script.js:1063-1065 | trimming ignores whitespace added on either side |
| JsString.Utf16Length | script.js:1064 | `length` counts UTF-16 code units, between one and two per character, one for every BMP character |
| JsString.Utf16LengthChar | script.js:1064 | a single character counts one code unit inside the Basic Multilingual Plane and two outside it |
| JsString.Utf16LengthAppend | script.js:1064 | the UTF-16 length of a concatenation is the sum of the lengths |
| JsString.Contains | script-prod.js:121-123 | `includes` holds exactly when the needle occurs at some index |
| JsString.ToLower | script-prod.js:122 | `toLowerCase` maps each ASCII capital to its small letter, leaves every other character as it is, and leaves no ASCII capital behind |
| JsString.LowerIdempotent | server.js:22 | lower-casing twice is lower-casing once |
| JsString.LowerOfUpper | script-prod.js:122 | under ASCII case mapping, lower-casing forgets an earlier upper-casing |
| ContactForm.CheckText | script.js:1061-1089 | a name, subject or message validator returns `''` if and only if the trimmed length is within its bounds; the required, too-short and too-long messages are chosen in that order |
| ContactForm.EmailError | script.js:1069-1075 | the email validator returns `''` if and only if the trimmed value matches `^[^\s@]+@[^\s@]+\.[^\s@]+$`; blank input gets the required message, other mismatches the invalid one |
| ContactForm.EmailScanMatchesPattern | script.js:1072-1073 | the executable scan accepts exactly the strings the regular expression matches |
| ContactForm.PrivacyError | script.js:1091-1094 | the privacy validator passes if and only if the box is checked |
| ContactForm.ValidateForm | script.js:1140-1168 | every field's error is shown, in field order, and the form is valid if and only if every validator accepts its field |
| ContactForm.AllFieldsPass | script.js:1140-1168 | all five validators return `''` if and only if the input meets every field's rule |
| ContactForm.ValidatorsIgnorePadding | script.js:1061-1089 | surrounding whitespace never changes a text validator's verdict |
| Typewriter.RolesNonEmpty | script.js:157-164 | every role has at least one character |
| Typewriter.Step | script.js:170-202 | a typing tick shows one more character and turns to deleting at the end of the role; a deleting tick shows the first `chars` characters and then drops one; when the count reaches zero the next role starts from scratch |
| Typewriter.ShownNeverEmpty | script.js:175-189 | every tick shows a non-empty prefix of the current role, so the text never empties, not even between roles |
| Typewriter.FirstDeleteRepeatsRole | script.js:174-189 | the last typing tick and the first deleting tick both show the whole role |
| Typewriter.TypesToEnd | script.js:174-186 | typing runs to the full role and then starts deleting |
| Typewriter.DeletesToNextRole | script.js:187-198 | the character count runs down to zero and then the next role starts, cyclically |
| Typewriter.RoleCycle | script.js:157-202 | from the start of any role, twice its length in ticks reach the start of the next role |
| ThemeToggle.ApplyTheme | script.js:127-138 | the page shows the sun icon and the "light mode" label exactly for `dark`, the moon icon and the "dark mode" label otherwise |
| ThemeToggle.SavedOrLight | script.js:113 | a saved non-empty theme is used as it is; a missing or empty one gives `light` |
| ThemeToggle.Load | script.js:113-114 | the page shows the saved theme, or `light`, with the sun icon and the "light mode" label for `dark` and the moon icon and the "dark mode" label otherwise; storage is only read |
| ThemeToggle.Toggle | script.js:117-125 | a click turns `dark` into `light` and anything else into `dark`, shows the sun icon and the "light mode" label for `dark` and the moon icon and the "dark mode" label otherwise, and saves the new theme |
| ThemeToggle.ToggleTwice | script.js:117-125 | toggling twice restores a dark or light theme |
| ThemeToggle.ReloadRestoresToggle | script.js:113-125 | reloading after a toggle shows the same page as before the reload |
| ProjectFilter.Apply | script.js:991-993 | each card is shown exactly when `filter === 'all' \|\| category === filter` |
| ProjectFilter.AllShowsEverything | script.js:993 | the `all` button shows every card |
| ProjectFilter.CategoryButtons | script.js:991-993 | a category button shows exactly the cards of that category, and two different buttons share no card |
| ProjectFilter.MissingFilterShowsUncategorised | script.js:984-993 | a button without `data-filter` shows exactly the cards without `data-category` |
| HamburgerMenu.Click | script.js:63-91 | the hamburger toggles both menus; a nav link or an outside click closes them; a click inside the menu changes nothing |
| HamburgerMenu.ClickKeepsSync | script.js:63-91 | the hamburger, the menu and `aria-expanded` stay in agreement after any click |
| HamburgerMenu.ClickAll | script.js:63-91 | agreement survives any sequence of clicks |
| HamburgerMenu.OpenAfterPresses | script.js:63-73 | from closed, the menu is open after `n` hamburger presses if and only if `n` is odd |
| HamburgerMenu.PressesFromOpen | script.js:63-73 | from open, the menu is open after `n` presses if and only if `n` is even |
| ErrorClassifier.IsCriticalError | script-prod.js:99-127 | a falsy error is not critical; a critical name is; otherwise a string message is critical if and only if it mentions a critical phrase, ignoring case |
| ErrorClassifier.CaseInsensitive | script-prod.js:120-124 | under ASCII case mapping, upper-casing the message never changes the verdict |
| ErrorClassifier.SurroundedPhraseStaysCritical | script-prod.js:107-124 | a critical error stays critical whatever text surrounds its message |
| Accessibility.LastSegment | script-prod.js:418 | `split('/').pop()` is the suffix after the last `/`, holding no `/`, and the whole string when there is none |
| Accessibility.BeforeFirstDot | script-prod.js:418 | `split('.')[0]` is the prefix before the first `.`, holding no `.`, and the whole string when there is none |
| Accessibility.BeforeFirstDotIs | script-prod.js:418 | a dot with no dot before it ends the prefix |
| Accessibility.Unhyphenate | script-prod.js:418 | `replace(/[_-]/g, ' ')` turns every `_` and `-` into a space and keeps every other character in place |
| Accessibility.Capitalise | script-prod.js:431 | under ASCII case mapping, the first character is upper-cased and the rest kept |
| Accessibility.AltText | script-prod.js:418-431 | the alt text is the trimmed caption when the image is in a captioned figure, else a non-empty title, else the capitalised file name |
| Accessibility.FileNameTextReadable | script-prod.js:418 | under ASCII case mapping, the file-name alt text has as many characters as the stem before the first dot and contains no `/`, `.`, `_` or `-` |
| Accessibility.FileNameExample | script-prod.js:418-431 | an image `/img/my_cat-2.png` with no caption and no title gets the alt text `My cat 2` |
| Accessibility.ImproveImages | script-prod.js:411-435 | only images without `alt` are changed, and each gets its derived alt text |
| Accessibility.ImproveImagesIdempotent | script-prod.js:413 | after one pass every image has alt text, so another pass changes nothing |
| Accessibility.Enhance | script-prod.js:264-279 | a missing `tabindex` becomes `0`, and a key handler is added only when the element is not yet marked |
| Accessibility.KeyDownClicks | script-prod.js:272-277 | keys other than Enter and Space click nothing |
| Accessibility.EnhanceIdempotent | script-prod.js:266-279 | enhancing twice is the same as enhancing once |
| Accessibility.OneClickPerKey | script-prod.js:266-279 | however often the pass runs, Enter or Space clicks a fresh element exactly once |
| Accessibility.OnControllerChange | script-prod.js:475-480 | the listener reloads only when no reload has started, and marks one as started |
| Accessibility.ReloadsAtMostOnce | script-prod.js:474-480 | any number of controller changes reload the page exactly once, none for zero |
| StaticServer.FilePath | server.js:21 | `/` names `./index.html`; every other URL is taken relative to `.` unchanged |
| StaticServer.ExtName | server.js:22 | the extension is empty or a dot followed by characters other than `.` and `/` |
| StaticServer.ExtNameIgnoresTrailingSlash | server.js:22 | a trailing slash does not change the extension |
| StaticServer.ExtNameOfFile | server.js:22 | `dir/stem.ext` has extension `.ext` |
| StaticServer.DotFileHasNoExt | server.js:22 | a hidden file such as `.env` has no extension |
| StaticServer.DotDotHasNoExt | server.js:22 | `..`, alone or as the last component of a path, has no extension, although its last dot is not its first character |
| StaticServer.ExtNameNoDot | server.js:22-23 | a file name without a dot, such as `LICENSE`, has no extension and is sent as `application/octet-stream` |
| StaticServer.MimeKeysWellFormed | server.js:8-18 | each table key is a dot followed by at least one character other than `.`, `/` and `?`, and is already lower-case |
| StaticServer.ContentType | server.js:22-23 | the lower-cased extension picks its table entry, and an unlisted one gives `application/octet-stream` |
| StaticServer.KnownExtension | server.js:8-23 | a listed extension in any case, in any directory, gets its table entry |
| StaticServer.QueryStringHidesType | server.js:21-23 | the query string is not stripped, so the extension of `/style.css?v=2` is `.css?v=2` and the Content-Type computed for it is `application/octet-stream` |
| StaticServer.QueryStringNotFound | server.js:21-33 | when no file name holds a `?`, a URL with a query string is read as a missing file: the answer is 404 "File not found" without a Content-Type |
| StaticServer.SameFileSameType | server.js:21-23 | two URLs naming the same file get the same Content-Type |
| StaticServer.IndexIsHtml | server.js:21-23 | `/index.html` is served as `text/html` |
| StaticServer.RootIsIndex | server.js:21 | `/` and `/index.html` get the same response, as HTML |
| StaticServer.Respond | server.js:25-37 | a read error with code `ENOENT` gives 404 "File not found", any other error 500 "Server error", a successful read 200 with the Content-Type header and the file's content |
| StaticServer.ServeTree | server.js:25-37 | over a tree of files and directories the answer is 200 with the content and its Content-Type exactly for a file, 404 exactly for a path that is absent, and 500 for a directory (`EISDIR`) or a path through a file (`ENOTDIR`) |
| StaticServer.DirectoryIsServerError | server.js:25-33 | a request for a directory is answered 500 "Server error" |

## Left out

- The request method: the fetch handler treats every request alike. The `caches.match` rules for non-GET requests, the `Vary` header and URL fragments are not modelled.
- Concurrency between the write-through `cache.put` and later events: the put is modelled as completing before the next event, and a failed put as never happening.
- Cache quota and storage failures other than a failed precache fetch.
- Console logging, timers (`setTimeout` delays in the typewriter), CSS classes used only for animation, and the DOM's presentation (`display`, styles).
- Unicode case mapping: `toLowerCase` and `toUpperCase` are modelled for ASCII letters only. The four members below hold for that mapping and not for JavaScript's full Unicode one.
- JsString.LowerOfUpper: not promised for non-ASCII text; JavaScript upper-cases `ı` to `I`, which lower-cases to `i`, and `ß` to `SS`, which lower-cases to `ss`.
- ErrorClassifier.CaseInsensitive: not promised for non-ASCII text; with a name outside the critical types, the message `null ıs not an object` lower-cases to itself and is not critical, while its upper-casing `NULL IS NOT AN OBJECT` is.
- Accessibility.Capitalise: not promised for non-ASCII text; a leading `ß` becomes the two characters `SS`, so the result is one character longer.
- Accessibility.FileNameTextReadable: not promised for non-ASCII text; `/img/ßtraße.png` gives `SStraße`, one character longer than its stem.
- The real-time `input` and `blur` validation handlers, which call the same validators as `validateForm`.
- `path.extname` on Windows paths: the server is modelled with POSIX paths.
- Reading files: `fs.readFile` is a parameter (`ReadResult`), or a lookup in a tree of files and directories (`ReadFile`). The tree is keyed by the exact path string; path normalisation (`./a/`, `//`, `..`), permissions and other error codes are not modelled.
- The remaining page features of both scripts (animations, particles, scrolling, notifications and the other accessibility fixes), which are presentation only.
- URL resolution: a site-relative manifest entry is resolved by prefixing the origin, without further URL normalisation.

=== FILE: accessibility.dfy ===
/**
 * The accessibility pass of `script-prod.js`: alt text derived for images
 * that have none (`improveImageAccessibility`), the once-only keyboard
 * enhancement of interactive elements (`improveKeyboardNavigation`), and the
 * once-only reload on a service-worker controller change
 * (`registerServiceWorker`).
 */
module Accessibility {
  import opened Wrappers
  import opened JsString

  /*** Alt text from an image's context or its file name ***/

  /** `s.split('/').pop()`: what follows the last `/`. */
  function LastSegment(s: string): (r: string)
    ensures |r| <= |s| && r == s[|s| - |r|..]
    ensures forall i :: 0 <= i < |r| ==> r[i] != '/'
    ensures |r| < |s| ==> s[|s| - |r| - 1] == '/'
  {
    var k := LastIndexOf(s, '/') + 1;
    assert |s[k..]| == |s| - k;
    s[k..]
  }

  /** `s.split('.')[0]`: everything before the first dot. */
  function BeforeFirstDot(s: string): (r: string)
    ensures |r| <= |s| && r == s[..|r|]
    ensures forall i :: 0 <= i < |r| ==> r[i] != '.'
    ensures |r| < |s| ==> s[|r|] == '.'
  {
    if |s| == 0 || s[0] == '.' then []
    else [s[0]] + BeforeFirstDot(s[1..])
  }

  /** The first dot decides the cut. */
  lemma {:induction false} BeforeFirstDotIs(s: string, k: nat)
    requires k < |s| && s[k] == '.'
    requires forall i :: 0 <= i < k ==> s[i] != '.'
    ensures BeforeFirstDot(s) == s[..k]
  {
    if k > 0 {
      BeforeFirstDotIs(s[1..], k - 1);
      assert s[..k] == [s[0]] + s[1..][..k - 1];
    }
  }

  /** `s.replace(/[_-]/g, ' ')`. */
  function Unhyphenate(s: string): (r: string)
    ensures |r| == |s|
    ensures forall i :: 0 <= i < |s| ==> r[i] == if s[i] == '_' || s[i] == '-' then ' ' else s[i]
  {
    seq(|s|, i requires 0 <= i < |s| => if s[i] == '_' || s[i] == '-' then ' ' else s[i])
  }

  /** `s.charAt(0).toUpperCase() + s.slice(1)`. */
  function Capitalise(s: string): (r: string)
    ensures |r| == |s|
    ensures |s| > 0 ==> r[0] == UpperChar(s[0]) && r[1..] == s[1..]
  {
    if |s| == 0 then s else [UpperChar(s[0])] + s[1..]
  }

  /** The readable name made from an image URL. */
  function FileNameText(src: string): string {
    Capitalise(Unhyphenate(BeforeFirstDot(LastSegment(src))))
  }

  /**
   * An image as the pass sees it: `src`, the `alt` attribute if any, `title`
   * (empty when absent) and the text of a `figcaption` in its enclosing
   * `figure`, if there is one.
   */
  datatype Image = Image(src: string, alt: Option<string>, title: string, caption: Option<string>)

  /** The alt text chosen: the trimmed caption, else a non-empty title, else the file name. */
  function AltText(img: Image): (text: string)
    ensures img.caption.Some? ==> text == Trim(img.caption.value)
    ensures img.caption.None? && img.title != "" ==> text == img.title
    ensures img.caption.None? && img.title == "" ==> text == FileNameText(img.src)
  {
    if img.caption.Some? then Trim(img.caption.value)
    else if img.title != "" then img.title
    else FileNameText(img.src)
  }

  /** No path or extension separator and no `_` or `-` left in `s`. */
  predicate Readable(s: string) {
    forall i :: 0 <= i < |s| ==> s[i] != '/' && s[i] != '.' && s[i] != '_' && s[i] != '-'
  }

  /** A stem without `/` or `.` becomes readable once its `_` and `-` are spaces. */
  lemma UnhyphenatedReadable(stem: string)
    requires forall i :: 0 <= i < |stem| ==> stem[i] != '/' && stem[i] != '.'
    ensures Readable(Unhyphenate(stem))
  {
    var plain := Unhyphenate(stem);
    forall i | 0 <= i < |plain|
      ensures plain[i] != '/' && plain[i] != '.' && plain[i] != '_' && plain[i] != '-'
    {
      assert plain[i] == if stem[i] == '_' || stem[i] == '-' then ' ' else stem[i];
    }
  }

  /** Upper-casing the first letter keeps a string readable. */
  lemma CapitalisedReadable(s: string)
    requires Readable(s)
    ensures Readable(Capitalise(s))
  {
    var r := Capitalise(s);
    forall i | 0 <= i < |r|
      ensures r[i] != '/' && r[i] != '.' && r[i] != '_' && r[i] != '-'
    {
      if i == 0 {
        assert r[0] == UpperChar(s[0]);
      } else {
        assert r[i] == r[1..][i - 1] == s[1..][i - 1] == s[i];
      }
    }
  }

  /**
   * The file-name form is the file's stem with separators made spaces: of the
   * same length, without `/`, `.`, `_` or `-`.
   */
  lemma FileNameTextReadable(src: string)
    ensures var stem := BeforeFirstDot(LastSegment(src));
      var text := FileNameText(src);
      |text| == |stem|
      && forall i :: 0 <= i < |text| ==> text[i] != '/' && text[i] != '.' && text[i] != '_' && text[i] != '-'
  {
    var seg := LastSegment(src);
    var stem := BeforeFirstDot(seg);
    assert forall i :: 0 <= i < |stem| ==> stem[i] == seg[i];
    UnhyphenatedReadable(stem);
    CapitalisedReadable(Unhyphenate(stem));
  }

  lemma ExampleSegment()
    ensures LastSegment("/img/my_cat-2.png") == "my_cat-2.png"
  {
    LastIndexOfIs("/img/my_cat-2.png", '/', 4);
  }

  lemma ExampleStem()
    ensures BeforeFirstDot("my_cat-2.png") == "my_cat-2"
  {
    ExampleFirstDot();
    BeforeFirstDotIs("my_cat-2.png", 8);
  }

  lemma ExampleFirstDot()
    ensures "my_cat-2.png"[8] == '.' && "my_cat-2.png"[..8] == "my_cat-2"
    ensures forall i :: 0 <= i < 8 ==> "my_cat-2.png"[i] != '.'
  {
  }

  lemma ExampleWords()
    ensures Capitalise(Unhyphenate("my_cat-2")) == "My cat 2"
  {
    var u := Unhyphenate("my_cat-2");
    assert u == "my cat 2";
  }

  /** An uncaptioned, untitled `/img/my_cat-2.png` is described as `My cat 2`. */
  lemma FileNameExample()
    ensures AltText(Image("/img/my_cat-2.png", None, "", None)) == "My cat 2"
  {
    ExampleSegment();
    ExampleStem();
    ExampleWords();
  }

  /** `improveImageAccessibility` on the images: only those without an `alt` attribute get one. */
  function ImproveImages(images: seq<Image>): (r: seq<Image>)
    ensures |r| == |images|
    ensures forall i :: 0 <= i < |images| && images[i].alt.Some? ==> r[i] == images[i]
    ensures forall i :: 0 <= i < |images| && images[i].alt.None? ==>
      r[i] == images[i].(alt := Some(AltText(images[i])))
  {
    seq(|images|, i requires 0 <= i < |images| =>
      if images[i].alt.None? then images[i].(alt := Some(AltText(images[i]))) else images[i])
  }

  /** After one pass every image has alt text, so a second pass changes nothing. */
  lemma ImproveImagesIdempotent(images: seq<Image>)
    ensures forall i :: 0 <= i < |images| ==> ImproveImages(images)[i].alt.Some?
    ensures ImproveImages(ImproveImages(images)) == ImproveImages(images)
  {
  }

  /*** Keyboard activation ***/

  /** An interactive element: its `tabindex`, whether it is marked `data-keyboard-handler`, and how many keydown handlers it has. */
  datatype Element = Element(tabindex: Option<string>, marked: bool, keyHandlers: nat)

  /** `improveKeyboardNavigation` on one element: add `tabindex="0"` and the key handler, each only when absent. */
  function Enhance(e: Element): (r: Element)
    ensures r.tabindex == (if e.tabindex.None? then Some("0") else e.tabindex)
    ensures r.marked
    ensures r.keyHandlers == e.keyHandlers + (if e.marked then 0 else 1)
  {
    var withTab := if e.tabindex.None? then e.(tabindex := Some("0")) else e;
    if !e.marked then withTab.(marked := true, keyHandlers := withTab.keyHandlers + 1) else withTab
  }

  /** The enhancement run `n` times, as when the pass is repeated. */
  function EnhanceTimes(e: Element, n: nat): Element {
    if n == 0 then e else Enhance(EnhanceTimes(e, n - 1))
  }

  /** How many clicks one keydown produces: one per handler, for Enter and Space only. */
  function KeyDownClicks(e: Element, key: string): (clicks: nat)
    ensures key != "Enter" && key != " " ==> clicks == 0
  {
    if key == "Enter" || key == " " then e.keyHandlers else 0
  }

  /** Enhancing is idempotent. */
  lemma EnhanceIdempotent(e: Element)
    ensures Enhance(Enhance(e)) == Enhance(e)
  {
  }

  /**
   * However often the pass runs on an element that had no handler, Enter and
   * Space click it exactly once.
   */
  lemma {:induction false} OneClickPerKey(e: Element, n: nat, key: string)
    requires !e.marked && e.keyHandlers == 0 && n >= 1
    requires key == "Enter" || key == " "
    ensures KeyDownClicks(EnhanceTimes(e, n), key) == 1
  {
    EnhancedStaysSingle(e, n);
  }

  lemma {:induction false} EnhancedStaysSingle(e: Element, n: nat)
    requires !e.marked && e.keyHandlers == 0 && n >= 1
    ensures EnhanceTimes(e, n).marked && EnhanceTimes(e, n).keyHandlers == 1
  {
    if n > 1 {
      EnhancedStaysSingle(e, n - 1);
    }
  }

  /*** Reload on controller change ***/

  /** The `refreshing` flag and how many times the page has been reloaded. */
  datatype Reloader = Reloader(refreshing: bool, reloads: nat)

  /** The `controllerchange` listener. */
  function OnControllerChange(r: Reloader): (r': Reloader)
    ensures r'.refreshing
    ensures r'.reloads == r.reloads + (if r.refreshing then 0 else 1)
  {
    if !r.refreshing then Reloader(true, r.reloads + 1) else r
  }

  function AfterChanges(r: Reloader, n: nat): Reloader {
    if n == 0 then r else OnControllerChange(AfterChanges(r, n - 1))
  }

  /** However many controller changes arrive, the page reloads at most once. */
  lemma {:induction false} ReloadsAtMostOnce(n: nat)
    ensures AfterChanges(Reloader(false, 0), n).reloads == (if n == 0 then 0 else 1)
    ensures n > 0 ==> AfterChanges(Reloader(false, 0), n).refreshing
  {
    if n > 0 {
      ReloadsAtMostOnce(n - 1);
    }
  }
}

=== FILE: contact_form.dfy ===
/**
 * The contact form's validators and the all-fields check run on submit
 * (`initContactForm` in `script.js`). Each validator maps a field's value to
 * an error message, the empty string meaning "valid".
 */
module ContactForm {
  import opened Wrappers
  import opened JsString

  /** A required text field whose trimmed length must lie within `min..max`. */
  datatype TextRule = TextRule(min: nat, max: nat, required: string, tooShort: string, tooLong: string)

  const NameRule := TextRule(2, 50,
    "Name is required", "Name must be at least 2 characters", "Name must be less than 50 characters")
  const SubjectRule := TextRule(3, 100,
    "Subject is required", "Subject must be at least 3 characters", "Subject must be less than 100 characters")
  const MessageRule := TextRule(10, 5000,
    "Message is required", "Message must be at least 10 characters", "Message must be less than 5000 characters")

  const EmailRequired := "Email is required"
  const EmailInvalid := "Please enter a valid email address"
  const PrivacyRequired := "You must agree to the Privacy Policy"

  /** The shape every rule of the form has: a positive minimum and three non-empty messages. */
  ghost predicate WellFormed(rule: TextRule) {
    1 <= rule.min <= rule.max && rule.required != "" && rule.tooShort != "" && rule.tooLong != ""
  }

  /**
   * The `name`, `subject` and `message` validators: emptiness after trimming
   * first, then the lower and the upper length bound, in UTF-16 code units.
   */
  function CheckText(rule: TextRule, value: string): (error: string)
    requires WellFormed(rule)
    ensures error == "" <==> rule.min <= Utf16Length(Trim(value)) <= rule.max
    ensures AllSpace(value) ==> error == rule.required
    ensures !AllSpace(value) && Utf16Length(Trim(value)) < rule.min ==> error == rule.tooShort
    ensures !AllSpace(value) && Utf16Length(Trim(value)) > rule.max ==> error == rule.tooLong
  {
    var trimmed := Trim(value);
    if |trimmed| == 0 then rule.required
    else if Utf16Length(trimmed) < rule.min then rule.tooShort
    else if Utf16Length(trimmed) > rule.max then rule.tooLong
    else ""
  }

  function NameError(value: string): string {
    CheckText(NameRule, value)
  }

  function SubjectError(value: string): string {
    CheckText(SubjectRule, value)
  }

  function MessageError(value: string): string {
    CheckText(MessageRule, value)
  }

  /*** The email shape ***/

  /** `s[lo..hi]` is a run of the class `[^\s@]`. */
  ghost predicate Plain(s: string, lo: int, hi: int) {
    forall k :: lo <= k < hi && 0 <= k < |s| ==> s[k] != '@' && !IsJsSpace(s[k])
  }

  /**
   * `s` matches `^[^\s@]+@[^\s@]+\.[^\s@]+$` with the `@` at `i` and the
   * literal dot at `j`.
   */
  ghost predicate EmailSplit(s: string, i: int, j: int) {
    0 < i && i + 1 < j && j + 1 < |s| && s[i] == '@' && s[j] == '.'
    && Plain(s, 0, i) && Plain(s, i + 1, j) && Plain(s, j + 1, |s|)
  }

  /** The email pattern of the validator, as the regular expression defines it. */
  ghost predicate MatchesEmailPattern(s: string) {
    exists i, j :: EmailSplit(s, i, j)
  }

  /** The first `c` in `s` at or after `from`. */
  function IndexOf(s: string, c: char, from: nat): (r: Option<nat>)
    requires from <= |s|
    ensures r.Some? ==> from <= r.value < |s| && s[r.value] == c
    ensures forall k :: from <= k < |s| && (r.None? || k < r.value) ==> s[k] != c
    decreases |s| - from
  {
    if from == |s| then None
    else if s[from] == c then Some(from)
    else IndexOf(s, c, from + 1)
  }

  /**
   * The email test, by scanning: no whitespace, exactly one `@` and not first,
   * and a `.` with at least one character between it and the `@` and at least
   * one after it.
   */
  function IsEmailAddress(s: string): bool {
    && (forall k | 0 <= k < |s| :: !IsJsSpace(s[k]))
    && match IndexOf(s, '@', 0)
       case None => false
       case Some(at) =>
         at > 0 && IndexOf(s, '@', at + 1).None?
         && exists j | at + 2 <= j <= |s| - 2 :: s[j] == '.'
  }

  /** The scan accepts exactly the strings the regular expression matches. */
  lemma EmailScanMatchesPattern(s: string)
    ensures IsEmailAddress(s) <==> MatchesEmailPattern(s)
  {
    if IsEmailAddress(s) {
      var at := IndexOf(s, '@', 0).value;
      var j :| at + 2 <= j <= |s| - 2 && s[j] == '.';
      assert EmailSplit(s, at, j);
    }
    if MatchesEmailPattern(s) {
      var i, j :| EmailSplit(s, i, j);
      assert forall k :: 0 <= k < |s| ==> !IsJsSpace(s[k]) by {
        forall k | 0 <= k < |s| ensures !IsJsSpace(s[k]) {
          if k != i && k != j {
            assert Plain(s, 0, i) && Plain(s, i + 1, j) && Plain(s, j + 1, |s|);
          }
        }
      }
      assert IndexOf(s, '@', 0) == Some(i);
      assert IndexOf(s, '@', i + 1).None?;
    }
  }

  /** The `email` validator. */
  function EmailError(value: string): (error: string)
    ensures error == "" <==> MatchesEmailPattern(Trim(value))
    ensures AllSpace(value) ==> error == EmailRequired
    ensures !AllSpace(value) && !MatchesEmailPattern(Trim(value)) ==> error == EmailInvalid
  {
    var trimmed := Trim(value);
    EmailScanMatchesPattern(trimmed);
    if |trimmed| == 0 then EmailRequired
    else if !IsEmailAddress(trimmed) then EmailInvalid
    else ""
  }

  /** The `privacy` validator: the checkbox must be ticked. */
  function PrivacyError(checked: bool): (error: string)
    ensures error == "" <==> checked
  {
    if !checked then PrivacyRequired else ""
  }

  /*** Validating the whole form ***/

  datatype Field = NameField | EmailField | SubjectField | MessageField | PrivacyField

  /** The form's fields in the order `validateForm` visits them. */
  const Fields: seq<Field> := [NameField, EmailField, SubjectField, MessageField, PrivacyField]

  /** What the form holds: the text fields' `value`s and the checkbox's `checked`. */
  datatype FormInput = FormInput(name: string, email: string, subject: string, message: string, privacy: bool)

  /** `validators[field.validator](value)` for one field. */
  function FieldError(field: Field, input: FormInput): string {
    match field
    case NameField => NameError(input.name)
    case EmailField => EmailError(input.email)
    case SubjectField => SubjectError(input.subject)
    case MessageField => MessageError(input.message)
    case PrivacyField => PrivacyError(input.privacy)
  }

  /** Every field is acceptable: the form may be submitted. */
  ghost predicate Acceptable(input: FormInput) {
    && 2 <= Utf16Length(Trim(input.name)) <= 50
    && MatchesEmailPattern(Trim(input.email))
    && 3 <= Utf16Length(Trim(input.subject)) <= 100
    && 10 <= Utf16Length(Trim(input.message)) <= 5000
    && input.privacy
  }

  /**
   * `validateForm`: runs every validator, in order and without stopping at the
   * first failure, shows each field's message (empty when valid), and reports
   * whether all of them passed.
   */
  method ValidateForm(input: FormInput) returns (isValid: bool, shown: seq<string>)
    ensures |shown| == |Fields|
    ensures forall k :: 0 <= k < |Fields| ==> shown[k] == FieldError(Fields[k], input)
    ensures isValid <==> forall k :: 0 <= k < |Fields| ==> shown[k] == ""
    ensures isValid <==> Acceptable(input)
  {
    isValid := true;
    shown := [];
    var k := 0;
    while k < |Fields|
      invariant 0 <= k <= |Fields|
      invariant |shown| == k
      invariant forall m :: 0 <= m < k ==> shown[m] == FieldError(Fields[m], input)
      invariant isValid <==> forall m :: 0 <= m < k ==> shown[m] == ""
    {
      var error := FieldError(Fields[k], input);
      if error != "" {
        isValid := false;
      }
      shown := shown + [error];
      k := k + 1;
    }
    AllFieldsPass(input);
  }

  /** Each validator's verdict, field by field. */
  lemma FieldVerdicts(input: FormInput)
    ensures FieldError(NameField, input) == "" <==> 2 <= Utf16Length(Trim(input.name)) <= 50
    ensures FieldError(EmailField, input) == "" <==> MatchesEmailPattern(Trim(input.email))
    ensures FieldError(SubjectField, input) == "" <==> 3 <= Utf16Length(Trim(input.subject)) <= 100
    ensures FieldError(MessageField, input) == "" <==> 10 <= Utf16Length(Trim(input.message)) <= 5000
    ensures FieldError(PrivacyField, input) == "" <==> input.privacy
  {
  }

  /** The five validators all return `''` exactly when the input is acceptable. */
  lemma AllFieldsPass(input: FormInput)
    ensures (forall k :: 0 <= k < |Fields| ==> FieldError(Fields[k], input) == "") <==> Acceptable(input)
  {
    FieldVerdicts(input);
    if forall k :: 0 <= k < |Fields| ==> FieldError(Fields[k], input) == "" {
      assert FieldError(Fields[0], input) == "";
      assert FieldError(Fields[1], input) == "";
      assert FieldError(Fields[2], input) == "";
      assert FieldError(Fields[3], input) == "";
      assert FieldError(Fields[4], input) == "";
    }
    if Acceptable(input) {
      forall k | 0 <= k < |Fields|
        ensures FieldError(Fields[k], input) == ""
      {
        assert Fields[k] in Fields;
      }
    }
  }

  /** Whitespace around a field's value never changes its verdict or its message. */
  lemma ValidatorsIgnorePadding(p: string, value: string, q: string)
    requires AllSpace(p) && AllSpace(q)
    ensures NameError(p + value + q) == NameError(value)
    ensures EmailError(p + value + q) == EmailError(value)
    ensures SubjectError(p + value + q) == SubjectError(value)
    ensures MessageError(p + value + q) == MessageError(value)
  {
    TrimIgnoresPadding(p, value, q);
  }
}

=== FILE: error_classifier.dfy ===
/**
 * `isCriticalError` in `script-prod.js`: which errors caught by the global
 * handlers count as critical, by the error's `name` or by phrases in its
 * `message`, compared case-insensitively.
 */
module ErrorClassifier {
  import opened JsString

  /** A JavaScript value, as far as the classifier inspects it. */
  datatype JsValue = Undefined | Str(text: string) | NonString

  /** The value handed to the classifier: a falsy one (`null`, `undefined`, ...) or an object. */
  datatype ErrorValue = Falsy | Thrown(name: JsValue, message: JsValue)

  const CriticalTypes: seq<string> := ["TypeError", "ReferenceError", "SyntaxError"]

  const CriticalPhrases: seq<string> := [
    "undefined is not a function",
    "null is not an object",
    "cannot read property",
    "is not defined"
  ]

  /** The message, lower-cased, contains one of the critical phrases, lower-cased. */
  predicate MentionsCriticalPhrase(message: string) {
    exists phrase | phrase in CriticalPhrases :: Contains(ToLower(message), ToLower(phrase))
  }

  /**
   * The classifier: false for a falsy value; true for a critical type name;
   * otherwise true exactly when the message is a non-empty string mentioning a
   * critical phrase.
   */
  function IsCriticalError(e: ErrorValue): (critical: bool)
    ensures e.Falsy? ==> !critical
    ensures e.Thrown? && e.name.Str? && e.name.text in CriticalTypes ==> critical
    ensures e.Thrown? && !(e.name.Str? && e.name.text in CriticalTypes) ==>
      (critical <==> e.message.Str? && e.message.text != "" && MentionsCriticalPhrase(e.message.text))
    ensures e.Thrown? && !e.message.Str? ==> (critical <==> e.name.Str? && e.name.text in CriticalTypes)
  {
    match e
    case Falsy => false
    case Thrown(name, message) =>
      if name.Str? && name.text in CriticalTypes then true
      else if message.Str? && message.text != "" then MentionsCriticalPhrase(message.text)
      else false
  }

  /** Upper-casing the message never changes the verdict. */
  lemma CaseInsensitive(name: JsValue, message: string)
    ensures IsCriticalError(Thrown(name, Str(ToUpper(message)))) == IsCriticalError(Thrown(name, Str(message)))
  {
    LowerOfUpper(message);
  }

  /** A message that mentions a critical phrase still does when more text surrounds it. */
  lemma {:induction false} SurroundedPhraseStaysCritical(name: JsValue, message: string, before: string, after: string)
    requires IsCriticalError(Thrown(name, Str(message)))
    ensures IsCriticalError(Thrown(name, Str(before + message + after)))
  {
    if !(name.Str? && name.text in CriticalTypes) {
      var phrase :| phrase in CriticalPhrases && Contains(ToLower(message), ToLower(phrase));
      LowerDistributes(before, message);
      LowerDistributes(before + message, after);
      ContainsExtended(ToLower(before), ToLower(message), ToLower(after), ToLower(phrase));
      assert |before + message + after| > 0;
    }
  }
}

=== FILE: hamburger_menu.dfy ===
/**
 * The mobile navigation menu (`initHamburgerMenu` in `script.js`): the
 * `active` class of the hamburger button and of the menu, and the button's
 * `aria-expanded`, under the three click handlers.
 */
module HamburgerMenu {

  datatype Menu = Menu(hamburgerActive: bool, menuActive: bool, ariaExpanded: bool)

  /** Where a click lands: the button (which stops propagation), a nav link, elsewhere in the menu, or outside both. */
  datatype Target = Hamburger | NavLink | InsideMenu | Outside

  const Closed := Menu(false, false, false)

  /** The button, the menu and the ARIA state agree. */
  predicate InSync(m: Menu) {
    m.hamburgerActive == m.menuActive == m.ariaExpanded
  }

  /** All handlers a click on `target` runs, in order. */
  function Click(m: Menu, target: Target): (r: Menu)
    ensures target == Hamburger ==> r.hamburgerActive == !m.hamburgerActive && r.menuActive == !m.menuActive
    ensures target != InsideMenu ==> r.ariaExpanded == r.hamburgerActive
    ensures target == NavLink || target == Outside ==> r == Closed
    ensures target == InsideMenu ==> r == m
  {
    match target
    case Hamburger =>
      // both classes are toggled independently; `aria-expanded` follows the button
      Menu(!m.hamburgerActive, !m.menuActive, !m.hamburgerActive)
    case NavLink => Closed       // the link's handler closes; the document handler sees a click inside the menu
    case InsideMenu => m
    case Outside => Closed
  }

  /** Every click keeps a synchronised menu synchronised. */
  lemma ClickKeepsSync(m: Menu, target: Target)
    requires InSync(m)
    ensures InSync(Click(m, target))
  {
  }

  /** The state after a sequence of clicks. */
  function ClickAll(m: Menu, targets: seq<Target>): (r: Menu)
    ensures InSync(m) ==> InSync(r)
    decreases |targets|
  {
    if |targets| == 0 then m else ClickAll(Click(m, targets[0]), targets[1..])
  }

  /** From the closed menu, `n` presses of the button leave it open exactly when `n` is odd. */
  lemma {:induction false} OpenAfterPresses(n: nat)
    ensures ClickAll(Closed, seq(n, _ => Hamburger)).hamburgerActive <==> n % 2 == 1
  {
    if n > 0 {
      assert seq(n, _ => Hamburger)[1..] == seq(n - 1, _ => Hamburger);
      PressesFromOpen(n - 1);
    }
  }

  lemma {:induction false} PressesFromOpen(n: nat)
    ensures ClickAll(Menu(true, true, true), seq(n, _ => Hamburger)).hamburgerActive <==> n % 2 == 0
  {
    if n > 0 {
      assert seq(n, _ => Hamburger)[1..] == seq(n - 1, _ => Hamburger);
      OpenAfterPresses(n - 1);
    }
  }
}

=== FILE: js_string.dfy ===
/**
 * The few pieces of JavaScript's string semantics the site's scripts rely on:
 * `trim` and the `\s` class, `.length` in UTF-16 code units, `startsWith`,
 * `includes`, and ASCII case mapping.
 */
module JsString {

  /** The WhiteSpace and LineTerminator code points of ECMAScript: what `trim` strips and `\s` matches. */
  predicate IsJsSpace(c: char) {
    var n := c as int;
    n == 0x09 || n == 0x0A || n == 0x0B || n == 0x0C || n == 0x0D || n == 0x20
    || n == 0xA0 || n == 0x1680 || (0x2000 <= n <= 0x200A) || n == 0x2028 || n == 0x2029
    || n == 0x202F || n == 0x205F || n == 0x3000 || n == 0xFEFF
  }

  /** Every character of `s[lo..hi]` is whitespace. */
  ghost predicate SpaceBetween(s: string, lo: int, hi: int) {
    forall k :: lo <= k < hi && 0 <= k < |s| ==> IsJsSpace(s[k])
  }

  ghost predicate AllSpace(s: string) {
    SpaceBetween(s, 0, |s|)
  }

  /** The first index at or after `i` that is not whitespace, or `|s|`. */
  function SkipLeading(s: string, i: nat): (k: nat)
    requires i <= |s|
    ensures i <= k <= |s|
    ensures SpaceBetween(s, i, k)
    ensures k < |s| ==> !IsJsSpace(s[k])
    decreases |s| - i
  {
    if i < |s| && IsJsSpace(s[i]) then SkipLeading(s, i + 1) else i
  }

  /** The end of `s[lo..hi]` once its trailing whitespace is cut off. */
  function SkipTrailing(s: string, lo: nat, hi: nat): (k: nat)
    requires lo <= hi <= |s|
    ensures lo <= k <= hi
    ensures SpaceBetween(s, k, hi)
    ensures lo < k ==> !IsJsSpace(s[k - 1])
    decreases hi
  {
    if lo < hi && IsJsSpace(s[hi - 1]) then SkipTrailing(s, lo, hi - 1) else hi
  }

  /** `r` is `s` with whitespace cut from both ends, and no more. */
  ghost predicate IsTrimOf(s: string, r: string) {
    exists i, j :: TrimmedAt(s, i, j) && r == s[i..j]
  }

  /** `s[i..j]` keeps everything of `s` but leading and trailing whitespace. */
  ghost predicate TrimmedAt(s: string, i: int, j: int) {
    && 0 <= i <= j <= |s|
    && SpaceBetween(s, 0, i) && SpaceBetween(s, j, |s|)
    && (i < j ==> !IsJsSpace(s[i]) && !IsJsSpace(s[j - 1]))
  }

  /** `String.prototype.trim`. */
  function Trim(s: string): (r: string)
    ensures IsTrimOf(s, r)
    ensures |r| == 0 <==> AllSpace(s)
  {
    var i := SkipLeading(s, 0);
    var j := SkipTrailing(s, i, |s|);
    assert TrimmedAt(s, i, j);
    s[i..j]
  }

  /** Trimming has one answer: two cuts that both strip exactly the surrounding whitespace agree. */
  lemma TrimmedAtUnique(s: string, i: int, j: int, i': int, j': int)
    requires TrimmedAt(s, i, j) && TrimmedAt(s, i', j')
    ensures s[i..j] == s[i'..j']
  {
  }

  /** Any cut that strips exactly the surrounding whitespace is what `trim` returns. */
  lemma TrimIsCut(s: string, i: int, j: int)
    requires TrimmedAt(s, i, j)
    ensures Trim(s) == s[i..j]
  {
    var r := Trim(s);
    assert IsTrimOf(s, r);
    var i', j' :| TrimmedAt(s, i', j') && r == s[i'..j'];
    TrimmedAtUnique(s, i, j, i', j');
  }

  /** Whitespace added around a value does not change what `trim` returns. */
  lemma TrimIgnoresPadding(p: string, s: string, q: string)
    requires AllSpace(p) && AllSpace(q)
    ensures Trim(p + s + q) == Trim(s)
  {
    var i, j := CutOf(s);
    var a, b := PaddedCut(p, s, q, i, j);
    TrimIsCut(p + s + q, a, b);
  }

  /** The cut `trim` makes. */
  lemma CutOf(s: string) returns (i: int, j: int)
    ensures TrimmedAt(s, i, j) && Trim(s) == s[i..j]
  {
    var r := Trim(s);
    assert IsTrimOf(s, r);
    i, j :| TrimmedAt(s, i, j) && r == s[i..j];
  }

  /** A cut of `s` that strips its whitespace strips it from `s` padded with whitespace too. */
  lemma PaddedCut(p: string, s: string, q: string, i: int, j: int) returns (a: int, b: int)
    requires AllSpace(p) && AllSpace(q) && TrimmedAt(s, i, j)
    ensures TrimmedAt(p + s + q, a, b) && (p + s + q)[a..b] == s[i..j]
  {
    var t := p + s + q;
    assert forall k :: 0 <= k < |p| ==> t[k] == p[k];
    assert forall k :: 0 <= k < |s| ==> t[|p| + k] == s[k];
    assert forall k :: 0 <= k < |q| ==> t[|p| + |s| + k] == q[k];
    if i < j {
      a, b := |p| + i, |p| + j;
      assert t[a..b] == s[i..j];
      assert SpaceBetween(t, 0, |p| + i) by {
        forall k | 0 <= k < |p| + i ensures IsJsSpace(t[k]) {
          if k >= |p| { assert t[k] == s[k - |p|]; }
        }
      }
      assert SpaceBetween(t, |p| + j, |t|) by {
        forall k | |p| + j <= k < |t| ensures IsJsSpace(t[k]) {
          if k < |p| + |s| { assert t[k] == s[k - |p|]; } else { assert t[k] == q[k - |p| - |s|]; }
        }
      }
    } else {
      a, b := |t|, |t|;
      assert SpaceBetween(t, 0, |t|) by {
        forall k | 0 <= k < |t| ensures IsJsSpace(t[k]) {
          if |p| <= k < |p| + |s| {
            assert t[k] == s[k - |p|];
            assert k - |p| < i || k - |p| >= j;
          } else if k >= |p| + |s| {
            assert t[k] == q[k - |p| - |s|];
          }
        }
      }
    }
  }

  /** `.length`: characters outside the Basic Multilingual Plane take two UTF-16 code units. */
  function Utf16Length(s: string): (n: nat)
    ensures |s| <= n <= 2 * |s|
    ensures (forall k :: 0 <= k < |s| ==> s[k] as int < 0x10000) ==> n == |s|
  {
    if |s| == 0 then 0
    else (if s[0] as int < 0x10000 then 1 else 2) + Utf16Length(s[1..])
  }

  /** One character counts one code unit inside the Basic Multilingual Plane and two (a surrogate pair) outside it. */
  lemma Utf16LengthChar(c: char)
    ensures c as int < 0x10000 ==> Utf16Length([c]) == 1
    ensures c as int >= 0x10000 ==> Utf16Length([c]) == 2
  {
    assert [c][1..] == [];
  }

  /** `.length` adds up over concatenation. */
  lemma {:induction false} Utf16LengthAppend(a: string, b: string)
    ensures Utf16Length(a + b) == Utf16Length(a) + Utf16Length(b)
  {
    if |a| > 0 {
      assert (a + b)[1..] == a[1..] + b;
      Utf16LengthAppend(a[1..], b);
    } else {
      assert a + b == b;
    }
  }

  predicate StartsWith(s: string, prefix: string) {
    |prefix| <= |s| && s[..|prefix|] == prefix
  }

  /** Where `t` occurs in `s`. */
  ghost predicate OccursAt(s: string, t: string, i: int) {
    0 <= i && i + |t| <= |s| && s[i..i + |t|] == t
  }

  /** `s.includes(t)`. */
  function Contains(s: string, t: string): (b: bool)
    ensures b <==> exists i :: OccursAt(s, t, i)
    decreases |s|
  {
    if |s| < |t| then
      assert forall i :: !OccursAt(s, t, i);
      false
    else if s[..|t|] == t then
      assert OccursAt(s, t, 0);
      true
    else
      var rest := Contains(s[1..], t);
      assert forall i :: OccursAt(s[1..], t, i) ==> OccursAt(s, t, i + 1) by {
        forall i | OccursAt(s[1..], t, i) ensures OccursAt(s, t, i + 1) {
          assert s[1..][i..i + |t|] == s[i + 1..i + 1 + |t|];
        }
      }
      assert forall i :: OccursAt(s, t, i) ==> i == 0 || OccursAt(s[1..], t, i - 1) by {
        forall i | OccursAt(s, t, i) && i != 0 ensures OccursAt(s[1..], t, i - 1) {
          assert s[1..][i - 1..i - 1 + |t|] == s[i..i + |t|];
        }
      }
      rest
  }

  function LowerChar(c: char): (d: char)
    ensures 'A' <= c <= 'Z' ==> 'a' <= d <= 'z' && d as int - c as int == 32
    ensures !('A' <= c <= 'Z') ==> d == c
  {
    if 'A' <= c <= 'Z' then (c as int + 32) as char else c
  }

  function UpperChar(c: char): (d: char)
    ensures 'a' <= c <= 'z' ==> 'A' <= d <= 'Z' && c as int - d as int == 32
    ensures !('a' <= c <= 'z') ==> d == c
  {
    if 'a' <= c <= 'z' then (c as int - 32) as char else c
  }

  /** `toLowerCase`, restricted to the ASCII letters. */
  function ToLower(s: string): (r: string)
    ensures |r| == |s|
    ensures forall k :: 0 <= k < |s| ==> r[k] == LowerChar(s[k])
    ensures forall k :: 0 <= k < |r| ==> !('A' <= r[k] <= 'Z')
    ensures forall k :: 0 <= k < |s| && !('A' <= s[k] <= 'Z') ==> r[k] == s[k]
  {
    seq(|s|, k requires 0 <= k < |s| => LowerChar(s[k]))
  }

  /** Lower-casing a lower-cased string changes nothing. */
  lemma LowerIdempotent(s: string)
    ensures ToLower(ToLower(s)) == ToLower(s)
  {
  }

  /** `toUpperCase`, restricted to the ASCII letters. */
  function ToUpper(s: string): (r: string)
    ensures |r| == |s|
    ensures forall k :: 0 <= k < |s| ==> r[k] == UpperChar(s[k])
  {
    seq(|s|, k requires 0 <= k < |s| => UpperChar(s[k]))
  }

  /** Case-folding forgets any earlier case mapping. */
  lemma LowerOfUpper(s: string)
    ensures ToLower(ToUpper(s)) == ToLower(s)
  {
  }

  lemma LowerDistributes(a: string, b: string)
    ensures ToLower(a + b) == ToLower(a) + ToLower(b)
  {
  }

  /** An occurrence survives extending the haystack on either side. */
  lemma ContainsExtended(p: string, s: string, q: string, t: string)
    requires Contains(s, t)
    ensures Contains(p + s + q, t)
  {
    var i :| OccursAt(s, t, i);
    assert (p + s + q)[|p| + i..|p| + i + |t|] == s[i..i + |t|];
    assert OccursAt(p + s + q, t, |p| + i);
  }

  /** `s.lastIndexOf(c)`: the index of the last `c` in `s`, or -1 when there is none. */
  function LastIndexOf(s: string, c: char): (r: int)
    ensures -1 <= r < |s|
    ensures r >= 0 ==> s[r] == c
    ensures forall i :: r < i < |s| ==> s[i] != c
  {
    if |s| == 0 then -1
    else if s[|s| - 1] == c then |s| - 1
    else LastIndexOf(s[..|s| - 1], c)
  }

  /** An occurrence of `c` with none after it is the last one. */
  lemma LastIndexOfIs(s: string, c: char, k: int)
    requires 0 <= k < |s| && s[k] == c
    requires forall i :: k < i < |s| ==> s[i] != c
    ensures LastIndexOf(s, c) == k
  {
  }
}

=== FILE: project_filter.dfy ===
/**
 * The portfolio's project filter (`initProjectFilters` in `script.js`): a
 * button's `data-filter` decides which cards, by their `data-category`, are
 * shown. A missing attribute reads as `null`, modelled as `None`.
 */
module ProjectFilter {
  import opened Wrappers

  /** `filter === 'all' || category === filter`. */
  predicate ShouldShow(filter: Option<string>, category: Option<string>) {
    filter == Some("all") || category == filter
  }

  /** The visibility each card gets when a filter button is clicked. */
  function Apply(filter: Option<string>, categories: seq<Option<string>>): (shown: seq<bool>)
    ensures |shown| == |categories|
    ensures forall i :: 0 <= i < |categories| ==> shown[i] == ShouldShow(filter, categories[i])
  {
    seq(|categories|, i requires 0 <= i < |categories| => ShouldShow(filter, categories[i]))
  }

  /** The `all` button shows every card. */
  lemma AllShowsEverything(categories: seq<Option<string>>)
    ensures forall i :: 0 <= i < |categories| ==> Apply(Some("all"), categories)[i]
  {
  }

  /** Any other button shows exactly the cards of its category, so two such buttons never share a card. */
  lemma CategoryButtons(f: string, g: string, categories: seq<Option<string>>)
    requires f != "all" && g != "all" && f != g
    ensures forall i :: 0 <= i < |categories| ==> (Apply(Some(f), categories)[i] <==> categories[i] == Some(f))
    ensures forall i :: 0 <= i < |categories| ==> !(Apply(Some(f), categories)[i] && Apply(Some(g), categories)[i])
  {
  }

  /** A button without `data-filter` shows exactly the cards without `data-category` (`null === null`). */
  lemma MissingFilterShowsUncategorised(categories: seq<Option<string>>)
    ensures forall i :: 0 <= i < |categories| ==> (Apply(None, categories)[i] <==> categories[i].None?)
  {
  }
}

=== FILE: service_worker.dfy ===
/**
 * The offline asset cache of `service-worker.js`: the install, activate, fetch
 * and message handlers as pure functions over an abstract cache store.
 *
 * The store is the worker's `CacheStorage`: named caches in creation order,
 * each a map from absolute request URL to stored response. The network is an
 * input (`NetworkResult`, or a function from URL to one for the precache), and
 * the fire-and-forget `cache.put` of the fetch handler is an immediate write.
 */
module ServiceWorker {
  import opened Wrappers
  import opened JsString

  /** `CACHE_NAME`: the label of the current cache generation. */
  const CacheName: string := "portfolio-v1.0"

  /** The directory of the site's icons and images. */
  const AssetsDir: string := "/assets/"

  /** The site-relative part of `urlsToCache`: pages, styles, scripts, icons and images. */
  const SiteUrls: seq<string> := [
    "/",
    "/index.html",
    "/developer-portfolio-v2.html",
    "/interactive-portfolio.html",
    "/styles.css",
    "/script.js",
    "/manifest.json",
    AssetsDir + "icons/icon-192.png",
    AssetsDir + "icons/icon-512.png",
    AssetsDir + "3d-casual-life-smiling-man-with-laptop-waving-hand.png",
    AssetsDir + "3d-casual-life-young-man-pointing-at-search-bar.png",
    AssetsDir + "3d-mini-boy.png",
    AssetsDir + "3d-techny-business-analytics-on-tablet-screen.png",
    AssetsDir + "3d-techny-business-tools-for-risk-assessment-and-management-1.png",
    AssetsDir + "3d-techny-lettering-css-and-laptop-with-program-code-text.gif",
    AssetsDir + "3d-techny-online-doctors-consultation-or-telemedicine.png",
    AssetsDir + "3d-techny-searching-the-web-on-tablet-1.png",
    AssetsDir + "attending-online-meeting-on-laptop.png",
    AssetsDir + "cute-robot-using-laptop-friendly-ai-chatbot-illustration-colorful-tech-mascot-drawing.png",
    AssetsDir + "grapy-software-developer-coding-with-two-monitors.png",
    AssetsDir + "online-translator-on-smartphone.png",
    AssetsDir + "techny-user-profile-on-phone-screen.png",
    AssetsDir + "icons/sprite.svg"
  ]

  /** The trusted cross-origin URL prefixes of the fetch handler's filter. */
  const FontsPrefix: string := "https://fonts."
  const CdnjsPrefix: string := "https://cdnjs."
  const JsdelivrPrefix: string := "https://cdn.jsdelivr.net/"

  /** The absolute part of `urlsToCache`: fonts and libraries from CDNs, spelt with their trusted prefix. */
  const CdnUrls: seq<string> := [
    FontsPrefix + "googleapis.com/css2?family=Inter:wght@300;400;500;600;700;800;900&family=Poppins:wght@300;400;500;600;700;800;900&family=JetBrains+Mono:wght@300;400;500;600;700;800&display=swap",
    CdnjsPrefix + "cloudflare.com/ajax/libs/font-awesome/6.4.0/css/all.min.css",
    CdnjsPrefix + "cloudflare.com/ajax/libs/gsap/3.12.2/gsap.min.js",
    JsdelivrPrefix + "npm/tsparticles@2.12.0/tsparticles.bundle.min.js"
  ]

  /** `urlsToCache`: the precache manifest, as written, in order. */
  const UrlsToCache: seq<string> := SiteUrls + CdnUrls

  /** The page the fetch handler falls back to for HTML requests when the network fails. */
  const OfflinePage: string := "/offline.html"

  /** The `type` of a Fetch API response. */
  datatype ResponseType = Basic | Cors | Opaque | OpaqueRedirect | Default | ErrorType

  datatype Response = Response(status: int, kind: ResponseType, body: string)

  /** A request: its absolute URL and its `accept` header, `None` when the header is absent. */
  datatype Request = Request(url: string, accept: Option<string>)

  /** What a `fetch` call settles to: a response, or a rejection (offline, DNS failure, ...). */
  datatype NetworkResult = Delivered(response: Response) | NetworkError

  datatype NamedCache = NamedCache(name: string, entries: map<string, Response>)

  ghost predicate DistinctNames(caches: seq<NamedCache>) {
    forall i, j :: 0 <= i < j < |caches| ==> caches[i].name != caches[j].name
  }

  /** `caches`: every named cache, oldest first; no two share a name. */
  type CacheStorage = caches: seq<NamedCache> | DistinctNames(caches) witness []

  ghost predicate HasCache(store: seq<NamedCache>, name: string) {
    exists i :: 0 <= i < |store| && store[i].name == name
  }

  /** Cache `i` is the oldest that holds `url`. */
  ghost predicate FirstHolder(store: seq<NamedCache>, url: string, i: int) {
    0 <= i < |store| && url in store[i].entries
    && forall j :: 0 <= j < i ==> url !in store[j].entries
  }

  /** Cache `i` is the oldest called `name`. */
  ghost predicate FirstNamed(store: seq<NamedCache>, name: string, i: int) {
    0 <= i < |store| && store[i].name == name
    && forall j :: 0 <= j < i ==> store[j].name != name
  }

  /** `caches.match(url)`: the entry of the oldest cache that holds `url`. */
  function Match(store: seq<NamedCache>, url: string): (r: Option<Response>)
    ensures r.None? <==> forall i :: 0 <= i < |store| ==> url !in store[i].entries
    ensures r.Some? ==> exists i :: FirstHolder(store, url, i) && store[i].entries[url] == r.value
  {
    if |store| == 0 then None
    else if url in store[0].entries then Some(store[0].entries[url])
    else
      var r := Match(store[1..], url);
      assert forall i :: 1 <= i < |store| ==> store[1..][i - 1] == store[i];
      r
  }

  /** `caches.open(name)`: the store, with an empty cache called `name` appended if there was none. */
  function Open(store: CacheStorage, name: string): (r: CacheStorage)
    ensures HasCache(r, name)
    ensures HasCache(store, name) ==> r == store
    ensures !HasCache(store, name) ==> r == store + [NamedCache(name, map[])]
  {
    if exists i :: 0 <= i < |store| && store[i].name == name then store
    else
      var r := store + [NamedCache(name, map[])];
      assert r[|store|].name == name;
      r
  }

  /** The cache names in creation order: the order `caches.keys()` lists them and `caches.match` searches them. */
  function Names(store: seq<NamedCache>): (r: seq<string>)
    ensures |r| == |store|
  {
    seq(|store|, i requires 0 <= i < |store| => store[i].name)
  }

  /** Replaces the entries of every cache called `name` by `entries`; the other caches stay as they are. */
  function Rewrite(store: CacheStorage, name: string, entries: map<string, Response>): (r: CacheStorage)
    ensures |r| == |store|
    ensures forall i :: 0 <= i < |store| ==> r[i].name == store[i].name
    ensures forall i :: 0 <= i < |store| && store[i].name != name ==> r[i] == store[i]
    ensures forall i :: 0 <= i < |store| && store[i].name == name ==> r[i].entries == entries
    ensures Names(r) == Names(store)
  {
    seq(|store|, i requires 0 <= i < |store| =>
      if store[i].name == name then NamedCache(name, entries) else store[i])
  }

  /** The entries of the cache called `name`, empty when there is none. */
  function EntriesOf(store: seq<NamedCache>, name: string): (m: map<string, Response>)
    ensures !HasCache(store, name) ==> m == map[]
    ensures forall i :: FirstNamed(store, name, i) ==> m == store[i].entries
  {
    if |store| == 0 then map[]
    else if store[0].name == name then store[0].entries
    else
      assert forall i :: 1 <= i < |store| ==> store[1..][i - 1] == store[i];
      EntriesOf(store[1..], name)
  }

  /** `caches.open(name).then(cache => cache.put(url, response))`. */
  function Put(store: CacheStorage, name: string, url: string, response: Response): (r: CacheStorage)
    ensures HasCache(r, name)
    ensures EntriesOf(r, name) == EntriesOf(store, name)[url := response]
    ensures forall n :: n != name ==> EntriesOf(r, n) == EntriesOf(store, n)
    ensures Names(r) == Names(Open(store, name))
  {
    var withCache := Open(store, name);
    EntriesOfOpen(store, name);
    RewriteEntries(withCache, name, EntriesOf(withCache, name)[url := response]);
    Rewrite(withCache, name, EntriesOf(withCache, name)[url := response])
  }

  lemma EntriesOfOpen(store: CacheStorage, name: string)
    ensures forall n :: EntriesOf(Open(store, name), n) == EntriesOf(store, n)
  {
    if !HasCache(store, name) {
      forall n ensures EntriesOf(store + [NamedCache(name, map[])], n) == EntriesOf(store, n) {
        EntriesOfAppend(store, NamedCache(name, map[]), n);
      }
    }
  }

  lemma {:induction false} EntriesOfAppend(store: seq<NamedCache>, c: NamedCache, n: string)
    requires c.name == n ==> c.entries == map[] || HasCache(store, n)
    requires c.name == n && !HasCache(store, n) ==> c.entries == map[]
    ensures EntriesOf(store + [c], n) == EntriesOf(store, n)
  {
    if |store| == 0 {
    } else {
      assert (store + [c])[1..] == store[1..] + [c];
      if store[0].name != n {
        assert HasCache(store, n) ==> HasCache(store[1..], n) by {
          if HasCache(store, n) {
            var i :| 0 <= i < |store| && store[i].name == n;
            assert store[1..][i - 1].name == n;
          }
        }
        EntriesOfAppend(store[1..], c, n);
      }
    }
  }

  lemma RewriteEntries(store: CacheStorage, name: string, entries: map<string, Response>)
    requires HasCache(store, name)
    ensures HasCache(Rewrite(store, name, entries), name)
    ensures EntriesOf(Rewrite(store, name, entries), name) == entries
    ensures forall n :: n != name ==> EntriesOf(Rewrite(store, name, entries), n) == EntriesOf(store, n)
  {
    var r := Rewrite(store, name, entries);
    var i :| 0 <= i < |store| && store[i].name == name;
    assert r[i].name == name;
    forall n | n != name ensures EntriesOf(r, n) == EntriesOf(store, n) {
      EntriesOfSameNames(store, r, name, n);
    }
  }

  lemma {:induction false} EntriesOfSameNames(a: seq<NamedCache>, b: seq<NamedCache>, name: string, n: string)
    requires |a| == |b| && n != name
    requires forall i :: 0 <= i < |a| ==> a[i].name == b[i].name
    requires forall i :: 0 <= i < |a| && a[i].name != name ==> a[i] == b[i]
    ensures EntriesOf(a, n) == EntriesOf(b, n)
  {
    if |a| > 0 && a[0].name != n {
      EntriesOfSameNames(a[1..], b[1..], name, n);
    }
  }

  /** Rewriting a cache with the entries it already has leaves the store unchanged. */
  lemma {:induction false} RewriteSame(store: CacheStorage, name: string)
    ensures Rewrite(store, name, EntriesOf(store, name)) == store
  {
    var r := Rewrite(store, name, EntriesOf(store, name));
    forall i | 0 <= i < |store| && store[i].name == name ensures r[i] == store[i] {
      assert FirstNamed(store, name, i);
    }
  }

  /*** Install: precache the manifest ***/

  /** A site-relative URL resolved against the page origin; absolute URLs stay as they are. */
  function Resolve(origin: string, url: string): string {
    if StartsWith(url, "/") then origin + url else url
  }

  /** The manifest as the absolute URLs the worker requests. */
  function Precache(origin: string): (urls: seq<string>)
    ensures |urls| == |UrlsToCache|
  {
    seq(|UrlsToCache|, i requires 0 <= i < |UrlsToCache| => Resolve(origin, UrlsToCache[i]))
  }

  /** What `Cache.addAll` accepts: an ok status (200 to 299) other than 206, and not a network error. */
  predicate Accepted(r: Response) {
    200 <= r.status <= 299 && r.status != 206 && r.kind != ErrorType
  }

  predicate FetchedOk(result: NetworkResult) {
    result.Delivered? && Accepted(result.response)
  }

  /**
   * `cache.addAll(urls)` on a cache holding `entries`, with `net` giving each URL's fetch.
   * All or nothing: one refused fetch rejects the whole batch and stores nothing.
   */
  function AddAll(entries: map<string, Response>, urls: seq<string>, net: string -> NetworkResult)
    : (r: Option<map<string, Response>>)
    ensures r.Some? <==> forall i :: 0 <= i < |urls| ==> FetchedOk(net(urls[i]))
    ensures r.Some? ==> r.value.Keys == entries.Keys + set u | u in urls
    ensures r.Some? ==> forall u :: u in urls ==> r.value[u] == net(u).response
    ensures r.Some? ==> forall k :: k in entries && k !in urls ==> r.value[k] == entries[k]
  {
    if forall u :: u in urls ==> FetchedOk(net(u)) then
      Some(entries + map u | u in urls && net(u).Delivered? :: net(u).response)
    else
      None
  }

  /** What an install event leaves behind. */
  datatype InstallResult = InstallResult(store: CacheStorage, skipWaiting: bool, precached: bool)

  /**
   * The install handler: `skipWaiting()`, open `CACHE_NAME`, `addAll` the manifest.
   * A rejected `addAll` is caught and logged, so the install completes either way.
   */
  function Install(origin: string, store: CacheStorage, net: string -> NetworkResult): (r: InstallResult)
    ensures r.skipWaiting
    ensures HasCache(r.store, CacheName)
    ensures r.precached <==> forall i :: 0 <= i < |UrlsToCache| ==> FetchedOk(net(Precache(origin)[i]))
    ensures r.precached ==> forall u :: u in Precache(origin) ==>
      u in EntriesOf(r.store, CacheName) && EntriesOf(r.store, CacheName)[u] == net(u).response
    ensures r.precached ==>
      EntriesOf(r.store, CacheName).Keys == EntriesOf(store, CacheName).Keys + set u | u in Precache(origin)
    ensures r.precached ==> forall k :: k in EntriesOf(store, CacheName) && k !in Precache(origin) ==>
      EntriesOf(r.store, CacheName)[k] == EntriesOf(store, CacheName)[k]
    ensures !r.precached ==> r.store == Open(store, CacheName)
    ensures forall n :: EntriesOf(store, n).Keys <= EntriesOf(r.store, n).Keys
    ensures forall n :: n != CacheName ==> EntriesOf(r.store, n) == EntriesOf(store, n)
    ensures Names(r.store) == Names(Open(store, CacheName))
  {
    var withCache := Open(store, CacheName);
    EntriesOfOpen(store, CacheName);
    match AddAll(EntriesOf(withCache, CacheName), Precache(origin), net)
    case Some(m) =>
      RewriteEntries(withCache, CacheName, m);
      InstallResult(Rewrite(withCache, CacheName, m), true, true)
    case None =>
      InstallResult(withCache, true, false)
  }

  /** Installing twice with the same manifest and the same network leaves the same store as installing once. */
  lemma InstallIdempotent(origin: string, store: CacheStorage, net: string -> NetworkResult)
    ensures Install(origin, Install(origin, store, net).store, net) == Install(origin, store, net)
  {
    var once := Install(origin, store, net);
    assert Open(once.store, CacheName) == once.store;
    if once.precached {
      AddAllNoop(EntriesOf(once.store, CacheName), Precache(origin), net);
      RewriteSame(once.store, CacheName);
    }
  }

  /** Re-adding a batch a cache already holds changes nothing. */
  lemma AddAllNoop(m: map<string, Response>, urls: seq<string>, net: string -> NetworkResult)
    requires forall u :: u in urls ==> FetchedOk(net(u)) && u in m && m[u] == net(u).response
    ensures AddAll(m, urls, net) == Some(m)
  {
    assert forall i :: 0 <= i < |urls| ==> urls[i] in urls;
    var r := AddAll(m, urls, net);
    assert r.Some?;
    assert r.value.Keys == m.Keys;
    assert r.value == m;
  }

  /*** Activate: evict every other generation ***/

  /** The activate handler: delete every cache whose name is not `CACHE_NAME`. */
  function Activate(store: CacheStorage): (r: CacheStorage)
    ensures forall c :: c in r ==> c.name == CacheName
    ensures forall i :: 0 <= i < |r| ==> r[i] in store
    ensures forall c :: c in store && c.name == CacheName ==> c in r
    decreases |store|, 0
  {
    if |store| == 0 then []
    else
      var rest: CacheStorage := store[1..];
      var kept := Activate(rest);
      if store[0].name == CacheName then
        assert forall j :: 0 <= j < |rest| ==> rest[j].name != CacheName by {
          forall j | 0 <= j < |rest| ensures rest[j].name != CacheName {
            assert rest[j] == store[j + 1];
          }
        }
        ActivateWithoutCurrent(rest);
        [store[0]] + kept
      else kept
  }

  /** A store without the current generation activates to nothing. */
  lemma {:induction false} ActivateWithoutCurrent(store: CacheStorage)
    requires forall j :: 0 <= j < |store| ==> store[j].name != CacheName
    ensures Activate(store) == []
    decreases |store|, 1
  {
    if |store| > 0 {
      ActivateWithoutCurrent(store[1..]);
    }
  }

  /** After activation exactly the current generation survives, with its entries untouched. */
  lemma ActivateKeepsOnlyCurrent(store: CacheStorage)
    ensures |Activate(store)| <= 1
    ensures HasCache(store, CacheName) <==> Activate(store) == [NamedCache(CacheName, EntriesOf(store, CacheName))]
    ensures forall url :: Match(Activate(store), url).Some? <==> url in EntriesOf(store, CacheName)
    ensures forall url :: url in EntriesOf(store, CacheName) ==> Match(Activate(store), url) == Some(EntriesOf(store, CacheName)[url])
  {
    var r := Activate(store);
    if HasCache(store, CacheName) {
      var i :| 0 <= i < |store| && store[i].name == CacheName;
      assert FirstNamed(store, CacheName, i);
      assert store[i] in r;
    } else {
      assert EntriesOf(store, CacheName) == map[];
    }
  }

  /*** Fetch: cache first, then network ***/

  /** The cross-origin URL prefixes the fetch handler accepts. */
  const TrustedPrefixes: seq<string> := [FontsPrefix, CdnjsPrefix, JsdelivrPrefix]

  /** The requests the worker answers: same-origin ones and the three trusted CDN families. */
  function Intercepts(origin: string, url: string): (b: bool)
    ensures b <==> StartsWith(url, origin) || exists k :: 0 <= k < |TrustedPrefixes| && StartsWith(url, TrustedPrefixes[k])
  {
    assert TrustedPrefixes[0] == FontsPrefix && TrustedPrefixes[1] == CdnjsPrefix && TrustedPrefixes[2] == JsdelivrPrefix;
    StartsWith(url, origin)
    || StartsWith(url, FontsPrefix)
    || StartsWith(url, CdnjsPrefix)
    || StartsWith(url, JsdelivrPrefix)
  }

  /** The write-through test: status 200 and a same-origin (`basic`) response. */
  predicate Cacheable(r: Response) {
    r.status == 200 && r.kind == Basic
  }

  /** What the page gets for one fetch event. */
  datatype FetchOutcome =
    | Passthrough                        // no `respondWith`: the browser's own network path
    | Respond(response: Option<Response>)  // `respondWith` settles; `None` is `undefined`
    | Rejected                           // `respondWith`'s promise rejects with a TypeError

  datatype FetchResult = FetchResult(outcome: FetchOutcome, store: CacheStorage, usedNetwork: bool)

  /**
   * The fetch handler. `net` is what `fetch(request)` would settle to; it is
   * consulted only on a cache miss (`usedNetwork`).
   */
  function HandleFetch(origin: string, store: CacheStorage, req: Request, net: NetworkResult): (r: FetchResult)
    ensures !Intercepts(origin, req.url) ==> r == FetchResult(Passthrough, store, false)
    ensures Intercepts(origin, req.url) ==> r.outcome != Passthrough
    // hit: the stored response, without touching the network
    ensures Intercepts(origin, req.url) && Match(store, req.url).Some? ==>
      r == FetchResult(Respond(Match(store, req.url)), store, false)
    ensures r.usedNetwork <==> Intercepts(origin, req.url) && Match(store, req.url).None?
    // miss, network answered: that response, stored exactly when cacheable
    ensures r.usedNetwork && net.Delivered? ==> r.outcome == Respond(Some(net.response))
    ensures r.usedNetwork && net.Delivered? && Cacheable(net.response) ==>
      EntriesOf(r.store, CacheName) == EntriesOf(store, CacheName)[req.url := net.response]
      && (forall n :: n != CacheName ==> EntriesOf(r.store, n) == EntriesOf(store, n))
      && Names(r.store) == Names(Open(store, CacheName))
    ensures r.store != store ==> r.usedNetwork && net.Delivered? && Cacheable(net.response)
    // miss, network failed: the offline page for HTML, `undefined` otherwise, a throw without `accept`
    ensures r.usedNetwork && net.NetworkError? && req.accept.None? ==> r.outcome == Rejected
    ensures r.usedNetwork && net.NetworkError? && req.accept.Some? ==>
      r.outcome == Respond(if Contains(req.accept.value, "text/html")
                           then Match(store, Resolve(origin, OfflinePage)) else None)
    ensures r.outcome == Rejected ==> r.usedNetwork && net.NetworkError? && req.accept.None?
  {
    if !Intercepts(origin, req.url) then FetchResult(Passthrough, store, false)
    else
      match Match(store, req.url)
      case Some(hit) => FetchResult(Respond(Some(hit)), store, false)
      case None =>
        match net
        case Delivered(response) =>
          if !Cacheable(response) then FetchResult(Respond(Some(response)), store, true)
          else FetchResult(Respond(Some(response)), Put(store, CacheName, req.url, response), true)
        case NetworkError =>
          match req.accept
          case None => FetchResult(Rejected, store, true)
          case Some(accept) =>
            if Contains(accept, "text/html") then
              FetchResult(Respond(Match(store, Resolve(origin, OfflinePage))), store, true)
            else FetchResult(Respond(None), store, true)
  }

  /** `caches.match` finds a written-through response: with no holder before the write, the only holder is `CACHE_NAME`. */
  lemma MatchAfterPut(store: CacheStorage, url: string, response: Response)
    requires Match(store, url).None?
    ensures Match(Put(store, CacheName, url, response), url) == Some(response)
  {
    var withCache := Open(store, CacheName);
    EntriesOfOpen(store, CacheName);
    var r := Put(store, CacheName, url, response);
    assert r == Rewrite(withCache, CacheName, EntriesOf(withCache, CacheName)[url := response]);
    assert forall i :: 0 <= i < |withCache| && withCache[i].name != CacheName ==> url !in withCache[i].entries;
    var i :| 0 <= i < |withCache| && withCache[i].name == CacheName;
    assert url in r[i].entries;
  }

  /** A cacheable miss is written through: the same request then hits, returning the same response, without the network. */
  lemma WriteThroughThenHit(origin: string, store: CacheStorage, req: Request, response: Response, later: NetworkResult)
    requires Intercepts(origin, req.url) && Match(store, req.url).None?
    requires Cacheable(response)
    ensures var first := HandleFetch(origin, store, req, Delivered(response));
      first.outcome == Respond(Some(response))
      && HandleFetch(origin, first.store, req, later) == FetchResult(Respond(Some(response)), first.store, false)
  {
    MatchAfterPut(store, req.url, response);
  }

  /*** Message: the page's request to skip waiting ***/

  /** `event.data`: absent or falsy, or an object whose `action` may be missing or a string. */
  datatype MessageData = NoData | Payload(action: Option<string>)

  /** Whether the message handler calls `skipWaiting()`. */
  function OnMessage(data: MessageData): (skip: bool)
    ensures skip ==> data != NoData
    ensures skip <==> data == Payload(Some("skipWaiting"))
  {
    data.Payload? && data.action == Some("skipWaiting")
  }

  /*** The worker as a state machine over its events ***/

  datatype Event =
    | InstallEvent(precacheNet: string -> NetworkResult)
    | ActivateEvent
    | FetchEvent(req: Request, net: NetworkResult)
    | MessageEvent(data: MessageData)

  /** The worker's observable state: its cache store, and how often it asked to skip waiting. */
  datatype Worker = Worker(store: CacheStorage, skipWaitingCalls: nat)

  function Step(origin: string, w: Worker, e: Event): (w': Worker)
    ensures e.MessageEvent? ==> w'.store == w.store
    ensures w'.skipWaitingCalls == w.skipWaitingCalls + (if e.InstallEvent? || (e.MessageEvent? && OnMessage(e.data)) then 1 else 0)
  {
    match e
    case InstallEvent(precacheNet) =>
      Worker(Install(origin, w.store, precacheNet).store, w.skipWaitingCalls + 1)
    case ActivateEvent => Worker(Activate(w.store), w.skipWaitingCalls)
    case FetchEvent(req, net) => Worker(HandleFetch(origin, w.store, req, net).store, w.skipWaitingCalls)
    case MessageEvent(data) => Worker(w.store, w.skipWaitingCalls + if OnMessage(data) then 1 else 0)
  }

  /**
   * Where a stored entry may come from: its key is a request the worker
   * intercepts, its response passed `addAll`'s test, and outside the manifest it
   * is a status-200 `basic` response written through by the fetch handler.
   */
  ghost predicate GoodEntry(origin: string, url: string, response: Response) {
    Intercepts(origin, url) && Accepted(response)
    && (url !in Precache(origin) ==> Cacheable(response))
  }

  ghost predicate GoodEntries(origin: string, entries: map<string, Response>) {
    forall url :: url in entries ==> GoodEntry(origin, url, entries[url])
  }

  /** The store invariant: every entry of every generation has a legitimate origin. */
  ghost predicate Provenance(origin: string, store: seq<NamedCache>) {
    forall i :: 0 <= i < |store| ==> GoodEntries(origin, store[i].entries)
  }

  lemma {:induction false} EntriesOfGood(origin: string, store: seq<NamedCache>, name: string)
    requires Provenance(origin, store)
    ensures GoodEntries(origin, EntriesOf(store, name))
  {
    if |store| > 0 && store[0].name != name {
      assert forall i :: 1 <= i < |store| ==> store[1..][i - 1] == store[i];
      EntriesOfGood(origin, store[1..], name);
    }
  }

  lemma PutGood(origin: string, store: CacheStorage, url: string, response: Response)
    requires Provenance(origin, store)
    requires GoodEntry(origin, url, response)
    ensures Provenance(origin, Put(store, CacheName, url, response))
  {
    var withCache := Open(store, CacheName);
    EntriesOfGood(origin, withCache, CacheName);
  }

  lemma InstallGood(origin: string, store: CacheStorage, net: string -> NetworkResult)
    requires Provenance(origin, store)
    ensures Provenance(origin, Install(origin, store, net).store)
  {
    var withCache := Open(store, CacheName);
    EntriesOfGood(origin, withCache, CacheName);
    PrecacheIntercepted(origin);
    var m := AddAll(EntriesOf(withCache, CacheName), Precache(origin), net);
    if m.Some? {
      forall u | u in Precache(origin) ensures FetchedOk(net(u)) {
        var i :| 0 <= i < |Precache(origin)| && Precache(origin)[i] == u;
      }
      assert GoodEntries(origin, m.value);
    }
  }

  /** No event can store an entry of illegitimate origin. */
  lemma StepKeepsProvenance(origin: string, w: Worker, e: Event)
    requires Provenance(origin, w.store)
    ensures Provenance(origin, Step(origin, w, e).store)
  {
    match e
    case InstallEvent(net) => InstallGood(origin, w.store, net);
    case ActivateEvent =>
      var r := Activate(w.store);
      forall i | 0 <= i < |r| ensures GoodEntries(origin, r[i].entries) {
        var j :| 0 <= j < |w.store| && w.store[j] == r[i];
      }
    case FetchEvent(req, net) =>
      if HandleFetch(origin, w.store, req, net).store != w.store {
        PutGood(origin, w.store, req.url, net.response);
      }
    case MessageEvent(_) =>
  }

  /**
   * Cross-origin exclusion: a request outside the allow-list is never answered
   * from the store, and handling it never writes to the store.
   */
  lemma UntrustedNeverCached(origin: string, store: CacheStorage, req: Request, net: NetworkResult)
    requires Provenance(origin, store)
    requires !Intercepts(origin, req.url)
    ensures Match(store, req.url).None?
    ensures HandleFetch(origin, store, req, net) == FetchResult(Passthrough, store, false)
  {
    forall i | 0 <= i < |store| ensures req.url !in store[i].entries {
      assert GoodEntries(origin, store[i].entries);
    }
  }

  /** `/offline.html` is not in the manifest. */
  lemma OfflinePageNotPrecached(origin: string)
    ensures Resolve(origin, OfflinePage) == origin + OfflinePage
    ensures Resolve(origin, OfflinePage) !in Precache(origin)
  {
    assert OfflinePage[..1] == "/";
    forall i | 0 <= i < |UrlsToCache| ensures Precache(origin)[i] != origin + OfflinePage {
      if i < |SiteUrls| {
        assert UrlsToCache[i] == SiteUrls[i];
        SiteEntryNotOffline(origin, i);
      } else {
        assert UrlsToCache[i] == CdnUrls[i - |SiteUrls|];
        CdnEntryNotOffline(origin, i - |SiteUrls|);
      }
    }
  }

  lemma SiteEntryNotOffline(origin: string, j: nat)
    requires j < |SiteUrls|
    ensures Resolve(origin, SiteUrls[j]) != origin + OfflinePage
  {
    SiteUrlsRooted();
    assert OfflinePage !in SiteUrls;
    var u := SiteUrls[j];
    assert u[..1] == [u[0]];
    assert (origin + u)[|origin|..] == u;
    assert (origin + OfflinePage)[|origin|..] == OfflinePage;
  }

  lemma CdnEntryNotOffline(origin: string, j: nat)
    requires j < |CdnUrls|
    ensures Resolve(origin, CdnUrls[j]) != origin + OfflinePage
  {
    var u := CdnUrls[j];
    assert u[0] == 'h';
    assert u[|u| - 1] != 'l';
  }

  /**
   * The offline fallback is empty after a clean deployment: install and
   * activate on an empty store, and an HTML request that misses while the
   * network is down is answered with `undefined`.
   */
  lemma OfflineFallbackEmptyAfterDeploy(origin: string, net: string -> NetworkResult, req: Request, accept: string)
    requires Intercepts(origin, req.url) && req.accept == Some(accept) && Contains(accept, "text/html")
    ensures var store := Activate(Install(origin, [], net).store);
      Match(store, req.url).None? ==> HandleFetch(origin, store, req, NetworkError).outcome == Respond(None)
  {
    DeployLacksOfflinePage(origin, net);
  }

  lemma DeployLacksOfflinePage(origin: string, net: string -> NetworkResult)
    ensures Match(Activate(Install(origin, [], net).store), Resolve(origin, OfflinePage)).None?
  {
    var installed := Install(origin, [], net).store;
    OfflinePageNotPrecached(origin);
    EntriesOfOpen([], CacheName);
    assert EntriesOf(Open([], CacheName), CacheName) == map[];
    ActivateKeepsOnlyCurrent(installed);
  }

  /**
   * A failed precache is not contained: the install still completes with an
   * empty `CACHE_NAME`, and the activation that follows deletes the older
   * generation, so nothing it held can be matched any more.
   */
  lemma FailedInstallEvictsOldGeneration(origin: string, store: CacheStorage, net: string -> NetworkResult, url: string)
    requires !HasCache(store, CacheName)
    requires exists i :: 0 <= i < |UrlsToCache| && !FetchedOk(net(Precache(origin)[i]))
    ensures Match(Activate(Install(origin, store, net).store), url).None?
  {
    var installed := Install(origin, store, net).store;
    assert installed == store + [NamedCache(CacheName, map[])];
    assert FirstNamed(installed, CacheName, |store|);
    ActivateKeepsOnlyCurrent(installed);
  }

  /** Every site-relative manifest entry is rooted at `/`. */
  lemma SiteUrlsRooted()
    ensures forall j :: 0 <= j < |SiteUrls| ==> |SiteUrls[j]| > 0 && SiteUrls[j][0] == '/'
  {
    PagesRooted();
    AssetsRooted();
  }

  /** The pages, styles, scripts and manifest are root-relative. */
  lemma PagesRooted()
    ensures forall j :: 0 <= j < 7 ==> |SiteUrls[j]| > 0 && SiteUrls[j][0] == '/'
  {
    assert SiteUrls[0][0] == '/';
    assert SiteUrls[1][0] == '/';
    assert SiteUrls[2][0] == '/';
    assert SiteUrls[3][0] == '/';
    assert SiteUrls[4][0] == '/';
    assert SiteUrls[5][0] == '/';
    assert SiteUrls[6][0] == '/';
  }

  /** The icons and images all lie under `AssetsDir`. */
  lemma AssetsRooted()
    ensures forall j :: 7 <= j < |SiteUrls| ==> |SiteUrls[j]| > 0 && SiteUrls[j][0] == '/'
  {
    assert SiteUrls[7][0] == '/';
    assert SiteUrls[8][0] == '/';
    assert SiteUrls[9][0] == '/';
    assert SiteUrls[10][0] == '/';
    assert SiteUrls[11][0] == '/';
    assert SiteUrls[12][0] == '/';
    assert SiteUrls[13][0] == '/';
    assert SiteUrls[14][0] == '/';
    assert SiteUrls[15][0] == '/';
    assert SiteUrls[16][0] == '/';
    assert SiteUrls[17][0] == '/';
    assert SiteUrls[18][0] == '/';
    assert SiteUrls[19][0] == '/';
    assert SiteUrls[20][0] == '/';
    assert SiteUrls[21][0] == '/';
    assert SiteUrls[22][0] == '/';
  }

  /** Every manifest URL is one the worker intercepts. */
  lemma PrecacheIntercepted(origin: string)
    ensures forall u :: u in Precache(origin) ==> Intercepts(origin, u)
  {
    SiteUrlsRooted();
    assert forall j :: 0 <= j < |CdnUrls| ==> CdnUrls[j][0] == 'h';
    forall i | 0 <= i < |UrlsToCache| ensures Intercepts(origin, Precache(origin)[i]) {
      var u := UrlsToCache[i];
      if i < |SiteUrls| {
        assert u == SiteUrls[i] && u[..1] == [u[0]];
        assert (origin + u)[..|origin|] == origin;
      } else {
        assert u == CdnUrls[i - |SiteUrls|];
        assert !StartsWith(u, "/");
      }
    }
  }
}

=== FILE: static_server.dfy ===
/**
 * The development server of `server.js`: a request URL is mapped to a file
 * under the working directory, the Content-Type is looked up from the
 * file's extension, and the outcome of reading the file picks the status.
 */
module StaticServer {
  import opened Wrappers
  import opened JsString

  /** The extension table; every other extension is served as `DefaultType`. */
  const MimeTypes: map<string, string> := map[
    ".html" := "text/html",
    ".css" := "text/css",
    ".js" := "application/javascript",
    ".png" := "image/png",
    ".jpg" := "image/jpeg",
    ".gif" := "image/gif",
    ".svg" := "image/svg+xml",
    ".mp4" := "video/mp4",
    ".ico" := "image/x-icon"
  ]

  const DefaultType := "application/octet-stream"

  /** The file served for a request URL: the site root is `index.html`, anything else is taken relative to `.`. */
  function FilePath(url: string): (path: string)
    ensures url == "/" ==> path == "./index.html"
    ensures url != "/" ==> |path| == |url| + 1 && path[0] == '.' && path[1..] == url
  {
    if url == "/" then "./index.html" else "." + url
  }

  /*** `path.extname` for POSIX paths ***/

  /** `p` without its trailing slashes. */
  function DropTrailingSlashes(p: string): (r: string)
    ensures |r| <= |p| && r == p[..|r|]
    ensures |r| == 0 || r[|r| - 1] != '/'
    ensures forall i :: |r| <= i < |p| ==> p[i] == '/'
  {
    if |p| > 0 && p[|p| - 1] == '/' then DropTrailingSlashes(p[..|p| - 1]) else p
  }

  /** The last path component, trailing slashes ignored. */
  function BaseName(p: string): (b: string)
    ensures forall i :: 0 <= i < |b| ==> b[i] != '/'
  {
    var t := DropTrailingSlashes(p);
    t[LastIndexOf(t, '/') + 1..]
  }

  /**
   * The extension: from the last dot of the base name to its end; empty when
   * the base name has no dot, when its only dot starts it (`.bashrc`), and
   * for `..`.
   */
  function ExtName(p: string): (e: string)
    ensures e == "" || (|e| >= 1 && e[0] == '.')
    ensures forall i :: 1 <= i < |e| ==> e[i] != '.' && e[i] != '/'
  {
    Extension(BaseName(p))
  }

  /** The extension of a base name `b`. */
  function Extension(b: string): (e: string)
    requires forall i :: 0 <= i < |b| ==> b[i] != '/'
    ensures e == "" || (|e| >= 1 && e[0] == '.')
    ensures forall i :: 1 <= i < |e| ==> e[i] != '.' && e[i] != '/'
  {
    var d := LastIndexOf(b, '.');
    if d <= 0 || b == ".." then "" else b[d..]
  }

  /** The Content-Type sent with a file: the extension is matched case-insensitively. */
  function ContentType(url: string): (t: string)
    ensures ToLower(ExtName(FilePath(url))) in MimeTypes ==> t == MimeTypes[ToLower(ExtName(FilePath(url)))]
    ensures ToLower(ExtName(FilePath(url))) !in MimeTypes ==> t == DefaultType
  {
    var ext := ToLower(ExtName(FilePath(url)));
    if ext in MimeTypes then MimeTypes[ext] else DefaultType
  }

  /** Trailing slashes do not change the extension. */
  lemma ExtNameIgnoresTrailingSlash(p: string)
    ensures ExtName(p + "/") == ExtName(p)
  {
    var q := p + "/";
    assert q[..|q| - 1] == p;
    assert DropTrailingSlashes(q) == DropTrailingSlashes(p);
  }

  /** The base name of `dir/name` is `name`. */
  lemma BaseNameOf(dir: string, name: string)
    requires name != ""
    requires forall i :: 0 <= i < |name| ==> name[i] != '/'
    ensures BaseName(dir + "/" + name) == name
  {
    var p := dir + "/" + name;
    assert p[|p| - 1] == name[|name| - 1];
    assert DropTrailingSlashes(p) == p;
    forall i | |dir| < i < |p|
      ensures p[i] != '/'
    {
      assert p[i] == name[i - |dir| - 1];
    }
    LastIndexOfIs(p, '/', |dir|);
    assert p[|dir| + 1..] == name;
  }

  /** A file `stem.ext` in any directory has extension `.ext`, unless the stem is empty or the name is `..`. */
  lemma ExtNameOfFile(dir: string, stem: string, ext: string)
    requires stem != "" && stem != "."
    requires forall i :: 0 <= i < |stem| ==> stem[i] != '/'
    requires forall i :: 0 <= i < |ext| ==> ext[i] != '/' && ext[i] != '.'
    ensures ExtName(dir + "/" + stem + "." + ext) == "." + ext
  {
    var name := stem + "." + ext;
    forall i | 0 <= i < |name|
      ensures name[i] != '/'
    {
      if i > |stem| {
        assert name[i] == ext[i - |stem| - 1];
      }
    }
    assert dir + "/" + stem + "." + ext == dir + "/" + name;
    BaseNameOf(dir, name);
    ExtensionOfName(stem, ext);
  }

  lemma ExtensionOfName(stem: string, ext: string)
    requires stem != "" && stem != "."
    requires forall i :: 0 <= i < |stem| ==> stem[i] != '/'
    requires forall i :: 0 <= i < |ext| ==> ext[i] != '/' && ext[i] != '.'
    ensures var name := stem + "." + ext;
      (forall i :: 0 <= i < |name| ==> name[i] != '/') && Extension(name) == "." + ext
  {
    var name := stem + "." + ext;
    forall i | 0 <= i < |name|
      ensures name[i] != '/'
    {
      if i > |stem| {
        assert name[i] == ext[i - |stem| - 1];
      }
    }
    forall i | |stem| < i < |name|
      ensures name[i] != '.'
    {
      assert name[i] == ext[i - |stem| - 1];
    }
    LastIndexOfIs(name, '.', |stem|);
    assert name != ".." by {
      if |name| == 2 {
        assert stem == name[..1];
      }
    }
    assert name[|stem|..] == "." + ext;
  }

  /** A hidden file such as `.env` has no extension. */
  lemma DotFileHasNoExt(dir: string, name: string)
    requires forall i :: 0 <= i < |name| ==> name[i] != '/' && name[i] != '.'
    ensures ExtName(dir + "/" + "." + name) == ""
  {
    var b := "." + name;
    forall i | 0 <= i < |b|
      ensures b[i] != '/'
    {
      if i > 0 {
        assert b[i] == name[i - 1];
      }
    }
    assert dir + "/" + "." + name == dir + "/" + b;
    BaseNameOf(dir, b);
    forall i | 0 < i < |b|
      ensures b[i] != '.'
    {
      assert b[i] == name[i - 1];
    }
    LastIndexOfIs(b, '.', 0);
  }

  /** `..`, alone or as the last component of a path, has no extension, although its last dot is not its first character. */
  lemma DotDotHasNoExt(dir: string)
    ensures ExtName("..") == ""
    ensures ExtName(dir + "/" + "..") == ""
  {
    BaseNameOf(dir, "..");
    assert DropTrailingSlashes("..") == "..";
  }

  /** A base name without a dot, such as `LICENSE` or `assets`, has no extension and is sent as `application/octet-stream`. */
  lemma ExtNameNoDot(dir: string, name: string)
    requires name != ""
    requires forall i :: 0 <= i < |name| ==> name[i] != '/' && name[i] != '.'
    ensures ExtName(dir + "/" + name) == ""
    ensures ContentType(dir + "/" + name) == DefaultType
  {
    NoDotNoExt(dir, name);
    FilePathInDir(dir, name);
    NoDotNoExt("." + dir, name);
    NoExtIsDefault(dir + "/" + name);
  }

  /** A URL naming a file in a directory is looked up under `.`. */
  lemma FilePathInDir(dir: string, name: string)
    requires name != "" && name[|name| - 1] != '/'
    ensures FilePath(dir + "/" + name) == ("." + dir) + "/" + name
  {
    var url := dir + "/" + name;
    assert url[|url| - 1] == name[|name| - 1];
  }

  /** A file without an extension is sent as `DefaultType`. */
  lemma NoExtIsDefault(url: string)
    requires ExtName(FilePath(url)) == ""
    ensures ContentType(url) == DefaultType
  {
    assert ToLower("") == "";
    assert "" !in MimeTypes;
  }

  lemma NoDotNoExt(dir: string, name: string)
    requires name != ""
    requires forall i :: 0 <= i < |name| ==> name[i] != '/' && name[i] != '.'
    ensures ExtName(dir + "/" + name) == ""
  {
    BaseNameOf(dir, name);
    assert LastIndexOf(name, '.') == -1;
  }

  /** Every key of the table is a `.` followed by characters other than `.`, `/` and `?`, already in lower case. */
  lemma MimeKeysWellFormed(key: string)
    requires key in MimeTypes
    ensures |key| >= 2 && key[0] == '.'
    ensures forall i :: 1 <= i < |key| ==> key[i] != '.' && key[i] != '/' && key[i] != '?'
    ensures ToLower(key) == key
  {
  }

  /**
   * Every listed extension, written in any mix of cases, in any directory and
   * under any stem, gets its table entry.
   */
  lemma KnownExtension(dir: string, stem: string, ext: string)
    requires stem != "" && stem != "."
    requires forall i :: 0 <= i < |stem| ==> stem[i] != '/'
    requires ToLower(ext) in MimeTypes
    ensures ContentType(dir + "/" + stem + ext) == MimeTypes[ToLower(ext)]
  {
    var key := ToLower(ext);
    MimeKeysWellFormed(key);
    assert ext[0] == '.' by {
      assert LowerChar(ext[0]) == '.';
    }
    var rest := ext[1..];
    forall i | 0 <= i < |rest|
      ensures rest[i] != '/' && rest[i] != '.'
    {
      assert LowerChar(rest[i]) == key[i + 1];
    }
    assert ext == "." + rest;
    var url := dir + "/" + stem + ext;
    assert url[|url| - 1] == ext[|ext| - 1];
    assert FilePath(url) == "." + dir + "/" + stem + "." + rest;
    ExtNameOfFile("." + dir, stem, rest);
  }

  /**
   * The URL is not stripped of its query string, which stays part of the file
   * name: for a versioned asset such as `/style.css?v=2` the extension is
   * `.css?v=2`, and the type computed is `application/octet-stream`.
   */
  lemma QueryStringHidesType(dir: string, stem: string, ext: string, query: string)
    requires stem != "" && stem != "."
    requires forall i :: 0 <= i < |stem| ==> stem[i] != '/'
    requires forall i :: 0 <= i < |ext| ==> ext[i] != '/' && ext[i] != '.'
    requires forall i :: 0 <= i < |query| ==> query[i] != '/' && query[i] != '.'
    ensures ContentType(dir + "/" + stem + "." + ext + "?" + query) == DefaultType
  {
    var url := dir + "/" + stem + "." + ext + "?" + query;
    var tail := ext + "?" + query;
    forall i | 0 <= i < |tail|
      ensures tail[i] != '/' && tail[i] != '.'
    {
      if i > |ext| {
        assert tail[i] == query[i - |ext| - 1];
      }
    }
    assert url[|url| - |query| - 1] == '?';
    assert FilePath(url) == "." + dir + "/" + stem + "." + tail;
    ExtNameOfFile("." + dir, stem, tail);
    var lowered := ToLower("." + tail);
    assert lowered[|ext| + 1] == '?';
    if lowered in MimeTypes {
      MimeKeysWellFormed(lowered);
      assert false;
    }
  }

  /*** Answering a request ***/

  /** What `fs.readFile` delivered: the file's content, or an error with its `code`, if any. */
  datatype ReadResult = Content(data: string) | ReadError(code: Option<string>)

  /** The status, the Content-Type header (only on success) and the body sent. */
  datatype HttpResponse = HttpResponse(status: nat, contentType: Option<string>, body: string)

  /** The response to `url` once reading `FilePath(url)` has produced `read`. */
  function Respond(url: string, read: ReadResult): (res: HttpResponse)
    ensures res.status == 200 <==> read.Content?
    ensures res.status == 404 <==> read == ReadError(Some("ENOENT"))
    ensures res.status == 500 <==> read.ReadError? && read.code != Some("ENOENT")
    ensures res.contentType.Some? <==> res.status == 200
    ensures read.Content? ==> res.contentType == Some(ContentType(url)) && res.body == read.data
    ensures res.status == 404 ==> res.body == "File not found"
    ensures res.status == 500 ==> res.body == "Server error"
  {
    match read
    case Content(data) => HttpResponse(200, Some(ContentType(url)), data)
    case ReadError(code) =>
      if code == Some("ENOENT") then HttpResponse(404, None, "File not found")
      else HttpResponse(500, None, "Server error")
  }

  /** What a path names on disk: a file and its content, or a directory. */
  datatype Node = File(data: string) | Dir

  /** The files and directories the server can read, keyed by the exact path `fs.readFile` is given. */
  type Tree = map<string, Node>

  /** Some file of `tree` stands where `path` needs a directory, as `index.html` does in `./index.html/x`. */
  predicate UnderFile(tree: Tree, path: string) {
    exists f :: f in tree && tree[f].File? && StartsWith(path, f + "/")
  }

  /** `fs.readFile` over `tree`: a directory fails with `EISDIR`, a path through a file with `ENOTDIR`, anything else missing with `ENOENT`. */
  function ReadFile(tree: Tree, path: string): ReadResult {
    if path in tree then
      match tree[path]
      case File(data) => Content(data)
      case Dir => ReadError(Some("EISDIR"))
    else if UnderFile(tree, path) then ReadError(Some("ENOTDIR"))
    else ReadError(Some("ENOENT"))
  }

  /** The request handler over `tree`. */
  function Serve(tree: Tree, url: string): HttpResponse {
    Respond(url, ReadFile(tree, FilePath(url)))
  }

  /**
   * The server answers 200 with the content exactly for files, 404 exactly
   * for paths that are absent, and 500 for directories and for paths that
   * run through a file.
   */
  lemma ServeTree(tree: Tree, url: string)
    ensures var path := FilePath(url);
      Serve(tree, url).status == 200 <==> path in tree && tree[path].File?
    ensures var path := FilePath(url);
      Serve(tree, url).status == 404 <==> path !in tree && !UnderFile(tree, path)
    ensures var path := FilePath(url);
      Serve(tree, url).status == 500 <==> (path in tree && tree[path].Dir?) || (path !in tree && UnderFile(tree, path))
    ensures var path := FilePath(url);
      path in tree && tree[path].File? ==> Serve(tree, url).body == tree[path].data
    ensures var path := FilePath(url);
      path in tree && tree[path].File? ==> Serve(tree, url).contentType == Some(ContentType(url))
  {
  }

  /** A request for a directory, such as `/assets`, is answered 500 "Server error". */
  lemma DirectoryIsServerError(tree: Tree, url: string)
    requires url != "/" && "." + url in tree && tree["." + url] == Dir
    ensures Serve(tree, url) == HttpResponse(500, None, "Server error")
  {
  }

  /**
   * Where no name on disk holds a `?`, a URL with a query string is answered
   * 404 "File not found", without a Content-Type, unless the path runs
   * through a file.
   */
  lemma QueryStringNotFound(tree: Tree, url: string, k: nat)
    requires k < |url| && url[k] == '?'
    requires forall p :: p in tree ==> forall i :: 0 <= i < |p| ==> p[i] != '?'
    requires !UnderFile(tree, FilePath(url))
    ensures Serve(tree, url) == HttpResponse(404, None, "File not found")
  {
    QueryPathAbsent(tree, url, k);
    assert ReadFile(tree, FilePath(url)) == ReadError(Some("ENOENT"));
    NotFoundResponse(url);
  }

  lemma NotFoundResponse(url: string)
    ensures Respond(url, ReadError(Some("ENOENT"))) == HttpResponse(404, None, "File not found")
  {
  }

  lemma QueryPathAbsent(tree: Tree, url: string, k: nat)
    requires k < |url| && url[k] == '?'
    requires forall p :: p in tree ==> forall i :: 0 <= i < |p| ==> p[i] != '?'
    ensures FilePath(url) !in tree
  {
    assert url != "/";
    assert FilePath(url)[k + 1] == '?';
  }

  /** The Content-Type depends on the URL only through the file it names. */
  lemma SameFileSameType(u: string, v: string)
    requires FilePath(u) == FilePath(v)
    ensures ContentType(u) == ContentType(v)
  {
  }

  lemma IndexBaseName()
    ensures BaseName("./index.html") == "index.html"
  {
    assert DropTrailingSlashes("./index.html") == "./index.html";
    LastIndexOfIs("./index.html", '/', 1);
  }

  lemma IndexExtension()
    ensures ExtName("./index.html") == ".html"
  {
    IndexBaseName();
    LastIndexOfIs("index.html", '.', 5);
  }

  lemma IndexFilePath()
    ensures FilePath("/index.html") == "./index.html"
  {
  }

  lemma IndexUrlExtension()
    ensures ExtName(FilePath("/index.html")) == ".html"
  {
    IndexFilePath();
    IndexExtension();
  }

  lemma HtmlEntry()
    ensures ".html" in MimeTypes && MimeTypes[".html"] == "text/html"
  {
  }

  /** A file whose extension is a lower-case key of the table gets that key's type. */
  lemma TypeOfListedExt(url: string, ext: string)
    requires ExtName(FilePath(url)) == ext && ToLower(ext) == ext && ext in MimeTypes
    ensures ContentType(url) == MimeTypes[ext]
  {
  }

  /** `/index.html` is served as HTML. */
  lemma IndexIsHtml()
    ensures ContentType("/index.html") == "text/html"
  {
    IndexUrlExtension();
    HtmlKeyLower();
    HtmlEntry();
    TypeOfListedExt("/index.html", ".html");
  }

  lemma HtmlKeyLower()
    ensures ToLower(".html") == ".html"
  {
    MimeKeysWellFormed(".html");
  }

  /** The site root and `/index.html` are the same file, served as HTML. */
  lemma RootIsIndex(tree: Tree)
    ensures Serve(tree, "/") == Serve(tree, "/index.html")
    ensures ContentType("/") == "text/html"
  {
    IndexFilePath();
    SameFileSameType("/", "/index.html");
    IndexIsHtml();
  }
}

=== FILE: theme_toggle.dfy ===
/**
 * The dark/light theme toggle (`initThemeToggle` in `script.js`): the page's
 * `data-theme`, the toggle's icon and label, and the theme saved in
 * `localStorage`, which is an input on load and an output on every click.
 */
module ThemeToggle {
  import opened Wrappers

  const Dark := "dark"
  const Light := "light"
  const SunIcon := "fas fa-sun"
  const MoonIcon := "fas fa-moon"
  const ToLightLabel := "Switch to light mode"
  const ToDarkLabel := "Switch to dark mode"

  /** What the toggle controls: the root's `data-theme`, the icon class, the button label, the saved theme. */
  datatype Page = Page(theme: string, icon: string, ariaLabel: string, saved: Option<string>)

  /** `applyTheme`: the sun icon and the "to light" label exactly for the dark theme. */
  function ApplyTheme(page: Page, theme: string): (r: Page)
    ensures r.theme == theme && r.saved == page.saved
    ensures r.icon == SunIcon <==> theme == Dark
    ensures r.icon == MoonIcon <==> theme != Dark
    ensures r.ariaLabel == (if theme == Dark then ToLightLabel else ToDarkLabel)
  {
    if theme == Dark then Page(theme, SunIcon, ToLightLabel, page.saved)
    else Page(theme, MoonIcon, ToDarkLabel, page.saved)
  }

  /** `localStorage.getItem('theme') || 'light'`: a missing or empty saved theme means light. */
  function SavedOrLight(saved: Option<string>): (theme: string)
    ensures theme != ""
    ensures saved.Some? && saved.value != "" ==> theme == saved.value
    ensures saved.None? || saved.value == "" ==> theme == Light
  {
    if saved.Some? && saved.value != "" then saved.value else Light
  }

  /** Page load: the saved theme, or light, is applied; storage is read, not written. */
  function Load(page: Page, saved: Option<string>): (r: Page)
    ensures r.saved == saved
    ensures r.theme == SavedOrLight(saved)
    ensures r.icon == (if r.theme == Dark then SunIcon else MoonIcon)
    ensures r.ariaLabel == (if r.theme == Dark then ToLightLabel else ToDarkLabel)
    ensures saved.None? ==> r.theme == Light && r.icon == MoonIcon
  {
    ApplyTheme(page.(saved := saved), SavedOrLight(saved))
  }

  /** The click handler: dark becomes light, anything else becomes dark, and the new theme is saved. */
  function Toggle(page: Page): (r: Page)
    ensures r.theme == (if page.theme == Dark then Light else Dark)
    ensures r.saved == Some(r.theme)
    ensures r.icon == (if r.theme == Dark then SunIcon else MoonIcon)
    ensures r.ariaLabel == (if r.theme == Dark then ToLightLabel else ToDarkLabel)
  {
    var next := if page.theme == Dark then Light else Dark;
    ApplyTheme(page, next).(saved := Some(next))
  }

  /** Two clicks return to the starting theme, whenever that theme is dark or light. */
  lemma ToggleTwice(page: Page)
    requires page.theme == Dark || page.theme == Light
    ensures Toggle(Toggle(page)).theme == page.theme
  {
  }

  /** A toggled theme survives a reload: loading what the click saved gives the same page. */
  lemma ReloadRestoresToggle(page: Page, before: Page)
    ensures Load(before, Toggle(page).saved) == Toggle(page)
  {
  }
}

=== FILE: typewriter.dfy ===
/**
 * The hero section's typewriter (`initTypewriterEffect` in `script.js`) as a
 * step function: each tick shows a prefix of the current role, typing it out
 * one character at a time, then deleting it, then moving to the next role.
 * The delays between ticks are scheduling and are not modelled.
 */
module Typewriter {

  const Roles: seq<string> := [
    "Full-Stack Developer",
    "PHP Laravel Expert",
    "React.js Specialist",
    "Frontend Developer",
    "Backend Engineer",
    "API Developer"
  ]

  /** `currentRoleIndex`, `currentCharIndex` and `isDeleting`. */
  datatype State = State(role: nat, chars: nat, deleting: bool)

  const Start := State(0, 0, false)

  /**
   * The states the effect can be in: a valid role index; while typing, fewer
   * characters than the role has; while deleting, at least one.
   */
  ghost predicate Valid(st: State) {
    st.role < |Roles|
    && (if st.deleting then 1 <= st.chars <= |Roles[st.role]| else st.chars < |Roles[st.role]|)
  }

  lemma RolesNonEmpty()
    ensures forall i :: 0 <= i < |Roles| ==> |Roles[i]| > 0
  {
  }

  /** One call of `typeWriter`: the text it shows and the state it leaves. */
  datatype Tick = Tick(shown: string, next: State)

  function Step(st: State): (t: Tick)
    requires Valid(st)
    ensures Valid(t.next)
    // typing: show one more character; the last one switches to deleting
    ensures !st.deleting ==> t.shown == Roles[st.role][..st.chars + 1]
    ensures !st.deleting ==> t.next.chars == st.chars + 1 && t.next.role == st.role
    ensures !st.deleting ==> (t.next.deleting <==> st.chars + 1 == |Roles[st.role]|)
    // deleting: show the current prefix and drop a character; at zero, the next role
    ensures st.deleting ==> t.shown == Roles[st.role][..st.chars] && t.next.chars == st.chars - 1
    ensures st.deleting && st.chars > 1 ==> t.next == State(st.role, st.chars - 1, true)
    ensures st.deleting && st.chars == 1 ==> t.next == State((st.role + 1) % |Roles|, 0, false)
  {
    RolesNonEmpty();
    var role := Roles[st.role];
    if !st.deleting then
      var chars := st.chars + 1;
      Tick(role[..chars], State(st.role, chars, chars == |role|))
    else
      var chars := st.chars - 1;
      if chars == 0 then Tick(role[..st.chars], State((st.role + 1) % |Roles|, 0, false))
      else Tick(role[..st.chars], State(st.role, chars, true))
  }

  /** Every tick shows at least one character: the text never empties, even between roles. */
  lemma ShownNeverEmpty(st: State)
    requires Valid(st)
    ensures |Step(st).shown| >= 1
    ensures Step(st).shown == Roles[st.role][..|Step(st).shown|]
  {
  }

  /** The first deleting tick shows the whole role again, as the last typing tick did. */
  lemma FirstDeleteRepeatsRole(i: nat)
    requires i < |Roles|
    ensures Valid(State(i, 0, false))
    ensures Run(State(i, 0, false), |Roles[i]|) == State(i, |Roles[i]|, true)
    ensures Step(State(i, |Roles[i]| - 1, false)).shown == Roles[i]
    ensures Step(State(i, |Roles[i]|, true)).shown == Roles[i]
  {
    RolesNonEmpty();
    TypesToEnd(State(i, 0, false));
  }

  /** The state after `n` ticks. */
  function Run(st: State, n: nat): (r: State)
    requires Valid(st)
    ensures Valid(r)
    decreases n
  {
    if n == 0 then st else Run(Step(st).next, n - 1)
  }

  lemma {:induction false} RunAdd(st: State, a: nat, b: nat)
    requires Valid(st)
    ensures Run(st, a + b) == Run(Run(st, a), b)
    decreases a
  {
    if a > 0 {
      RunAdd(Step(st).next, a - 1, b);
    }
  }

  /** Typing runs to the end of the role and turns to deleting. */
  lemma {:induction false} TypesToEnd(st: State)
    requires Valid(st) && !st.deleting
    ensures Run(st, |Roles[st.role]| - st.chars) == State(st.role, |Roles[st.role]|, true)
    decreases |Roles[st.role]| - st.chars
  {
    var next := Step(st).next;
    if st.chars + 1 < |Roles[st.role]| {
      TypesToEnd(next);
    }
  }

  /** Deleting counts the characters down to zero and moves to the next role, wrapping after the last. */
  lemma {:induction false} DeletesToNextRole(st: State)
    requires Valid(st) && st.deleting
    ensures Run(st, st.chars) == State((st.role + 1) % |Roles|, 0, false)
    decreases st.chars
  {
    if st.chars > 1 {
      DeletesToNextRole(Step(st).next);
    }
  }

  /** A whole role takes twice its length in ticks, and then the next role starts from scratch. */
  lemma RoleCycle(i: nat)
    requires i < |Roles|
    ensures Valid(State(i, 0, false))
    ensures Run(State(i, 0, false), 2 * |Roles[i]|) == State((i + 1) % |Roles|, 0, false)
  {
    RolesNonEmpty();
    var st := State(i, 0, false);
    TypesToEnd(st);
    RunAdd(st, |Roles[i]|, |Roles[i]|);
    DeletesToNextRole(State(i, |Roles[i]|, true));
  }
}

=== FILE: wrappers.dfy ===
/** The absent-or-present value that stands in for JavaScript's `null`/`undefined`. */
module Wrappers {

  datatype Option<+T> = None | Some(value: T)
}
